=== FILE: README.md ===
# publish-over-dropbox, modelled in Dafny

This project models the client-side core of the Jenkins "Publish over Dropbox" plugin:

- **`FormBody`**: the `application/x-www-form-urlencoded` body builder (`FormBuilder`). It follows section 17.13.4.1 of HTML 4.01. Pairs are kept in insertion order and rendered as `enc(key)=enc(value)`, with `&` only between pairs. The URL encoder is a function parameter `enc`. The parse-back lemma assumes only that `enc` never emits `&` or `=`.
- **`HeaderEncoding`**: `JsonObjectRequest.httpHeaderEncode`. A Java string is a sequence of UTF-16 code units. Each ASCII unit is kept. Each other unit becomes the six characters `\uXXXX`, the escape form of section 7 of RFC 8259. A Dafny `string` holds Unicode scalar values, so the model first lays the string out as UTF-16 units, as Java stores it.
- **`ChunkedUpload`**: the chunked upload used by `storeFile`. A payload is split into chunks of `chunkSize` bytes. It is sent either as one request or as an upload session of start, append and finish requests. A server-side replay of the requests shows that exactly the payload is committed.
- **`Timestamps`**: `parseDate` for the fixed form `YYYY-MM-DDTHH:MM:SSZ` of section 5.6 of RFC 3339. It parses to calendar fields. `FormatDate` is its inverse.
- **`Paths`**: path resolution against the working folder, the lower-cased `pathLower` identity, and parent/leaf/inside relations.
- **`DropboxClient`**: the `DropboxV2` client. The client record holds the token, the connected flag, the timeout with its `-1` sentinel, the working folder and `chunkSize`. The remote store is a map from lower-cased absolute path to `FolderEntry | FileEntry(size, modified)`. The server is that store plus the tokens it accepts. The operations are `setTimeout`, `connect`/`disconnect`, `makeDirectory`, `changeWorkingDirectory`, `retrieveMetaData`, `listFilesOfFolder`, `delete`, `storeFile`, `cleanWorkingFolder` and `pruneFolder`. Each remote operation returns the new server or the `RestException` kind it would raise.
- **`ClientScenarios`**: the storage client's test sequences, restated as lemmas and methods about the model. The fixture's `setUp` is modelled as written and as evidently intended (see Findings); both skip the test when the token is empty, as its `assumeTrue` does, so every scenario requires a non-empty token. Each scenario continues with the client and server the intended `setUp` returns, on any account it can start from (make, enter, store, retrieve, clean, prune, chunked uploads, non-ASCII names).
- **`PublishStep`**: the `DropboxPublishStep` configuration value. It has a constructor, null-fixing and clamping setters, and `getTransfers`. A Java `String` that may be `null` is an `Option<string>`.

The source of `DropboxV2` and `JsonObjectRequest` is not part of this model. Their behaviour is taken from the assertions of `DropboxV2Test.java` and `JsonObjectRequestTest.java`. The gaps those tests leave are filled by the choices listed under "Left out".

The builder and client are immutable values, so `build` cannot change the parameter list. Calling it twice on the same builder gives the same string, and `getTransfers` leaves the step as it was.

## Model

| member | source | states |
|---|---|---|
| `FormBody.NewBuilder` | src/main/java/org/jenkinsci/plugins/publishoverdropbox/domain/FormBuilder.java:38 | a new builder has no parameters and satisfies the even-length invariant |
| `FormBody.PairsOf` | src/main/java/org/jenkinsci/plugins/publishoverdropbox/domain/FormBuilder.java:49-50 | the i-th pair is (entry 2i, entry 2i+1) of the interleaved list, so the list holds whole pairs in insertion order |
| `FormBody.AppendQueryParameter` | src/main/java/org/jenkinsci/plugins/publishoverdropbox/domain/FormBuilder.java:40-45 | appends exactly two entries, key then value, leaves earlier entries untouched, keeps the list even, and grows the pair view by exactly this pair at the end |
| `FormBody.AppendPairRenders` | src/main/java/org/jenkinsci/plugins/publishoverdropbox/domain/FormBuilder.java:56-63 | `append` applied to the reference rendering of any pairs gives the reference rendering of those pairs followed by the new one, so `&` stands only between pairs |
| `FormBody.Build` | src/main/java/org/jenkinsci/plugins/publishoverdropbox/domain/FormBuilder.java:47-54 | the body equals the reference rendering: the encoded pairs in insertion order joined by `&`; it is empty exactly when there are no pairs |
| `FormBody.SeparatorCount` | src/main/java/org/jenkinsci/plugins/publishoverdropbox/domain/FormBuilder.java:57-59 | for k >= 1 pairs, the body holds exactly k-1 `&`, and none leads or trails |
| `FormBody.SplitJoin` | src/main/java/org/jenkinsci/plugins/publishoverdropbox/domain/FormBuilder.java:57-58 | splitting on `&` undoes joining with `&` when no part contains it |
| `FormBody.ParseRender` | src/main/java/org/jenkinsci/plugins/publishoverdropbox/domain/FormBuilder.java:56-63 | splitting the body on `&`, then each field on `=`, recovers exactly the sequence of (enc(key), enc(value)) pairs |
| `FormBody.BuildParsesBack` | src/main/java/org/jenkinsci/plugins/publishoverdropbox/domain/FormBuilder.java:47-63 | end to end: the built body parses back to the encoded keys and values in the order they were appended |
| `HeaderEncoding.Utf16` | src/test/java/org/jenkinsci/plugins/publishoverdropbox/domain/JsonObjectRequestTest.java:46 | a scalar value below 0x10000 is one unit equal to itself; any other is a surrogate pair that encodes it |
| `HeaderEncoding.Hex4` | src/test/java/org/jenkinsci/plugins/publishoverdropbox/domain/JsonObjectRequestTest.java:47 | four ASCII hexadecimal digits whose value is the unit |
| `HeaderEncoding.EscapeUnit` | src/test/java/org/jenkinsci/plugins/publishoverdropbox/domain/JsonObjectRequestTest.java:46-47 | an ASCII unit is kept as itself; any other unit becomes six ASCII characters starting with backslash and `u` |
| `HeaderEncoding.AsciiUnchanged` | src/test/java/org/jenkinsci/plugins/publishoverdropbox/domain/JsonObjectRequestTest.java:33-41 | every all-ASCII string encodes to itself |
| `HeaderEncoding.SimpleEncode` | src/test/java/org/jenkinsci/plugins/publishoverdropbox/domain/JsonObjectRequestTest.java:33-41 | `"simple"` encodes to itself |
| `HeaderEncoding.DashEncode` | src/test/java/org/jenkinsci/plugins/publishoverdropbox/domain/JsonObjectRequestTest.java:46-47 | U+2014 becomes backslash, `u`, `2`, `0`, `1`, `4` |
| `HeaderEncoding.SpecialCharEncode` | src/test/java/org/jenkinsci/plugins/publishoverdropbox/domain/JsonObjectRequestTest.java:43-52 | `simple` U+2014 `text` encodes to the ASCII text `simple\u2014text` (a backslash followed by `u2014`) |
| `HeaderEncoding.HttpHeaderEncodeConcat` | src/test/java/org/jenkinsci/plugins/publishoverdropbox/domain/JsonObjectRequestTest.java:46-47 | encoding works piece by piece: enc(a + b) == enc(a) + enc(b) |
| `HeaderEncoding.AsciiAroundEscape` | src/test/java/org/jenkinsci/plugins/publishoverdropbox/domain/JsonObjectRequestTest.java:46-47 | ASCII runs on both sides of any string are kept verbatim and in place around its encoding |
| `HeaderEncoding.EncodeUnitsAscii` | src/test/java/org/jenkinsci/plugins/publishoverdropbox/domain/JsonObjectRequestTest.java:46 | on units: the output is ASCII, and its length is the unit count plus 5 per non-ASCII unit |
| `HeaderEncoding.HttpHeaderEncodeShape` | src/test/java/org/jenkinsci/plugins/publishoverdropbox/domain/JsonObjectRequestTest.java:46-49 | the output contains only ASCII, and its length is the UTF-16 length plus 5 per non-ASCII unit |
| `HeaderEncoding.Utf16Bmp` | src/test/java/org/jenkinsci/plugins/publishoverdropbox/domain/JsonObjectRequestTest.java:46 | for 16-bit characters the UTF-16 layout is the string itself, so the output length is the input length plus 5 per non-ASCII character |
| `HeaderEncoding.DecodeEncodeUnits` | src/test/java/org/jenkinsci/plugins/publishoverdropbox/domain/JsonObjectRequestTest.java:46-47 | the receiving side's decoder recovers the units when none is a backslash |
| `HeaderEncoding.DecodeLength` | src/test/java/org/jenkinsci/plugins/publishoverdropbox/domain/JsonObjectRequestTest.java:46-47 | a decoded value is 5 characters longer than its units per backslash it contains, since each backslash opens a six-character escape |
| `HeaderEncoding.EncodeBackslashes` | src/test/java/org/jenkinsci/plugins/publishoverdropbox/domain/JsonObjectRequestTest.java:46-47 | an encoded value holds one backslash per non-ASCII unit and one per backslash unit |
| `HeaderEncoding.BackslashBreaksDecode` | src/test/java/org/jenkinsci/plugins/publishoverdropbox/domain/JsonObjectRequestTest.java:46-47 | any backslash unit in the input makes the decoder return something other than the input |
| `HeaderEncoding.DecodeEncodeUnitsExactly` | src/test/java/org/jenkinsci/plugins/publishoverdropbox/domain/JsonObjectRequestTest.java:46-47 | the decoder recovers the units exactly when none is a backslash |
| `HeaderEncoding.HttpHeaderRoundTrip` | src/test/java/org/jenkinsci/plugins/publishoverdropbox/domain/JsonObjectRequestTest.java:43-52 | decoding the header value of a backslash-free string gives back its UTF-16 units |
| `HeaderEncoding.EscapeCollision` | src/test/java/org/jenkinsci/plugins/publishoverdropbox/domain/JsonObjectRequestTest.java:46-47 | the six-character text `\u2014` and the character U+2014 encode to the same header value, which is why the round trip excludes backslashes |
| `ChunkedUpload.Split` | src/test/java/org/jenkinsci/plugins/publishoverdropbox/domain/DropboxV2Test.java:202-243 | the chunks concatenate to the payload; all but the last are exactly `chunkSize` long, and the last is non-empty and at most `chunkSize` (one empty chunk for an empty payload) |
| `ChunkedUpload.ChunkCountIsCeiling` | src/test/java/org/jenkinsci/plugins/publishoverdropbox/domain/DropboxV2Test.java:213-235 | the number of requests is the payload length divided by the chunk size, rounded up, and 1 for an empty payload |
| `ChunkedUpload.SplitCount` | src/test/java/org/jenkinsci/plugins/publishoverdropbox/domain/DropboxV2Test.java:213-235 | the split produces exactly that many chunks |
| `ChunkedUpload.FlattenSnoc` | src/test/java/org/jenkinsci/plugins/publishoverdropbox/domain/DropboxV2Test.java:202-243 | helper of `Split` and `Upload`: concatenating one more chunk extends the concatenation by that chunk |
| `ChunkedUpload.ReplaySnoc` | src/test/java/org/jenkinsci/plugins/publishoverdropbox/domain/DropboxV2Test.java:202-243 | helper of `Upload`: the server handles requests one at a time, in order |
| `ChunkedUpload.Upload` | src/test/java/org/jenkinsci/plugins/publishoverdropbox/domain/DropboxV2Test.java:202-243 | one request per chunk carrying that chunk; each append and the finish carry the offset of the bytes sent before; the server's replay commits exactly the concatenated chunks; the client ends `Committed` with that many bytes |
| `ChunkedUpload.SendPayload` | src/test/java/org/jenkinsci/plugins/publishoverdropbox/domain/DropboxV2Test.java:202-243 | a payload goes out as ceil(n / chunkSize) requests of at most `chunkSize` bytes; it is a single request exactly when it fits; the server commits exactly the payload |
| `ChunkedUpload.TestChunkCounts` | src/test/java/org/jenkinsci/plugins/publishoverdropbox/domain/DropboxV2Test.java:207-235 | 1100 bytes with chunk size 1100/2+1 take 2 requests, and with 1100/3-10 take 4 |
| `Timestamps.ParseDate` | src/test/java/org/jenkinsci/plugins/publishoverdropbox/domain/DropboxV2Test.java:263-273 | succeeds exactly on well-formed `YYYY-MM-DDTHH:MM:SSZ` input; anything else is a format error naming the input |
| `Timestamps.TwoDigits` | src/test/java/org/jenkinsci/plugins/publishoverdropbox/domain/DropboxV2Test.java:266 | two digits that read back as the number |
| `Timestamps.FourDigits` | src/test/java/org/jenkinsci/plugins/publishoverdropbox/domain/DropboxV2Test.java:266 | four digits that read back as the number |
| `Timestamps.FormatDate` | src/test/java/org/jenkinsci/plugins/publishoverdropbox/domain/DropboxV2Test.java:266 | the fixed-width text of a date-time is 20 characters long |
| `Timestamps.Hour12` | src/test/java/org/jenkinsci/plugins/publishoverdropbox/domain/DropboxV2Test.java:271 | for hours below 24, the 12-hour-clock hour is below 12 and is the hour, or the hour less 12 |
| `Timestamps.ParseFormat` | src/test/java/org/jenkinsci/plugins/publishoverdropbox/domain/DropboxV2Test.java:263-273 | every printable date-time formats to a well-formed timestamp that parses back to it |
| `Timestamps.FormatParse` | src/test/java/org/jenkinsci/plugins/publishoverdropbox/domain/DropboxV2Test.java:263-273 | every well-formed timestamp is the format of the fields it parses to |
| `Timestamps.DateParsingExample` | src/test/java/org/jenkinsci/plugins/publishoverdropbox/domain/DropboxV2Test.java:263-273 | `2016-11-04T07:42:22Z` parses to year 2016, hour 7 (7 on the 12-hour clock), second 22 |
| `Paths.Lower` | src/test/java/org/jenkinsci/plugins/publishoverdropbox/domain/DropboxV2Test.java:163 | the lower-cased path has the same length and is folded character by character |
| `Paths.LowerFacts` | src/test/java/org/jenkinsci/plugins/publishoverdropbox/domain/DropboxV2Test.java:163 | case folding is idempotent, works piecewise and keeps separators in place |
| `Paths.LastSlash` | src/test/java/org/jenkinsci/plugins/publishoverdropbox/domain/DropboxV2Test.java:162 | the index of the last `/`, with none after it |
| `Paths.ParentLeaf` | src/test/java/org/jenkinsci/plugins/publishoverdropbox/domain/DropboxV2Test.java:161-163 | `a/b` with a separator-free `b` has parent `a` and name `b`, and is a direct entry of `a` |
| `Paths.ChildUnder` | src/test/java/org/jenkinsci/plugins/publishoverdropbox/domain/DropboxV2Test.java:194-199 | a direct entry lies inside its folder, and no folder lies inside itself |
| `Paths.Resolve` | src/test/java/org/jenkinsci/plugins/publishoverdropbox/domain/DropboxV2Test.java:141-149 | `/` is the root, another absolute path stands for itself, and a relative path is appended to the working folder |
| `Paths.ResolveBareName` | src/test/java/org/jenkinsci/plugins/publishoverdropbox/domain/DropboxV2Test.java:155-163 | a bare name resolves to a direct entry of the working folder with that name; its key is the folder's path, `/` and the lower-cased name |
| `DropboxClient.MetadataOf` | src/test/java/org/jenkinsci/plugins/publishoverdropbox/domain/DropboxV2Test.java:161-164 | metadata carries the entry's name, its key as `pathLower`, its kind, and a file's size and time |
| `DropboxClient.NewClient` | src/test/java/org/jenkinsci/plugins/publishoverdropbox/domain/DropboxV2Test.java:97-101 | a fresh client is disconnected, has timeout `-1`, works in the root and has a positive chunk size |
| `DropboxClient.SetTimeout` | src/test/java/org/jenkinsci/plugins/publishoverdropbox/domain/DropboxV2Test.java:81-95 | a value at or above the threshold is stored; a smaller one leaves the client unchanged; no other field changes; the timeout stays `-1` or an accepted value |
| `DropboxClient.TimeoutExamples` | src/test/java/org/jenkinsci/plugins/publishoverdropbox/domain/DropboxV2Test.java:81-95 | on a fresh client, 213 leaves `getTimeout` at `-1` and 60001 is read back |
| `DropboxClient.Connect` | src/test/java/org/jenkinsci/plugins/publishoverdropbox/domain/DropboxV2Test.java:103-109 | succeeds exactly when the server accepts the token, and then only the connected flag changes; otherwise it fails with an invalid-token error |
| `DropboxClient.Disconnect` | src/test/java/org/jenkinsci/plugins/publishoverdropbox/domain/DropboxV2Test.java:111-119 | clears the connected flag and nothing else |
| `DropboxClient.ConnectionLifecycle` | src/test/java/org/jenkinsci/plugins/publishoverdropbox/domain/DropboxV2Test.java:97-119 | fresh is disconnected; connect with an accepted token connects; disconnect disconnects again; a rejected token makes connect fail |
| `DropboxClient.ValidPreserved` | src/test/java/org/jenkinsci/plugins/publishoverdropbox/domain/DropboxV2Test.java:81-149 | setTimeout, connect, disconnect and changeWorkingDirectory keep the client invariant (timeout sentinel or accepted; working folder a lower-cased folder) |
| `DropboxClient.MakeDirectory` | src/test/java/org/jenkinsci/plugins/publishoverdropbox/domain/DropboxV2Test.java:121-128 | succeeds exactly when the token is accepted, the last component of the resolved path is non-empty and no file is in the way; returns the folder at the resolved key; an existing folder leaves the server unchanged; otherwise only that key is added, named by the last component |
| `DropboxClient.MakeDirectoryIdempotent` | src/test/java/org/jenkinsci/plugins/publishoverdropbox/domain/DropboxV2Test.java:130-139 | a second identical call succeeds with the same folder and the same server |
| `DropboxClient.MakeDirectoryNew` | src/test/java/org/jenkinsci/plugins/publishoverdropbox/domain/DropboxV2Test.java:121-128 | where nothing is stored, `makeDirectory` adds exactly one folder, named by the last path component, and returns it |
| `DropboxClient.ChangeWorkingDirectory` | src/test/java/org/jenkinsci/plugins/publishoverdropbox/domain/DropboxV2Test.java:141-149 | reports true exactly when the resolved path is a folder, and then the working folder's `pathLower` is the resolved key; otherwise the client is unchanged |
| `DropboxClient.ChangeIntoFolder` | src/test/java/org/jenkinsci/plugins/publishoverdropbox/domain/DropboxV2Test.java:141-149 | changing into an existing folder makes its metadata the working folder and changes no other client field |
| `DropboxClient.RetrieveMetaData` | src/test/java/org/jenkinsci/plugins/publishoverdropbox/domain/DropboxV2Test.java:161-164 | returns the entry at the lower-cased path, and otherwise fails with not-found |
| `DropboxClient.Listing` | src/test/java/org/jenkinsci/plugins/publishoverdropbox/domain/DropboxV2Test.java:198-199 | a listing holds exactly the direct entries of the folder, each with its metadata |
| `DropboxClient.ListFilesOfFolder` | src/test/java/org/jenkinsci/plugins/publishoverdropbox/domain/DropboxV2Test.java:196-199 | succeeds exactly on an existing folder and lists exactly its direct entries |
| `DropboxClient.RemoveTree` | src/test/java/org/jenkinsci/plugins/publishoverdropbox/domain/DropboxV2Test.java:60-63 | removes a key and everything inside it, and keeps all other entries as they were |
| `DropboxClient.Delete` | src/test/java/org/jenkinsci/plugins/publishoverdropbox/domain/DropboxV2Test.java:60-63 | succeeds exactly on an existing entry, removes it and everything inside it, and keeps all else |
| `DropboxClient.DeleteThenRetrieve` | src/test/java/org/jenkinsci/plugins/publishoverdropbox/domain/DropboxV2Test.java:60-63 | after `delete`, retrieving the target is not-found and no folder lists it; any path outside the deleted subtree retrieves as before |
| `DropboxClient.CleanWorkingFolder` | src/test/java/org/jenkinsci/plugins/publishoverdropbox/domain/DropboxV2Test.java:185-200 | the working folder still exists and lists no entries; everything outside it is unchanged; nothing is added |
| `DropboxClient.PruneFolder` | src/test/java/org/jenkinsci/plugins/publishoverdropbox/domain/DropboxV2Test.java:246-261 | removes exactly the direct file entries older than `days` days, and only when `days > 0`; all else is unchanged |
| `DropboxClient.PruneKeepsRecent` | src/test/java/org/jenkinsci/plugins/publishoverdropbox/domain/DropboxV2Test.java:246-261 | pruning a folder none of whose entries is expired changes nothing |
| `DropboxClient.FreshNotExpired` | src/test/java/org/jenkinsci/plugins/publishoverdropbox/domain/DropboxV2Test.java:253-255 | a file stamped `now` is not expired at `now` for any non-negative day count |
| `DropboxClient.PruneRemovesOldFile` | src/test/java/org/jenkinsci/plugins/publishoverdropbox/domain/DropboxV2Test.java:246-261 | a direct file older than the day count is removed |
| `DropboxClient.StoreFile` | src/test/java/org/jenkinsci/plugins/publishoverdropbox/domain/DropboxV2Test.java:151-165 | succeeds exactly when the token is accepted, the last component of the resolved path is non-empty and no folder is in the way; only the resolved key changes, to a file with the last component as name, the payload's size and time `now`; the server committed exactly the payload, in ceil(n / chunkSize) requests; a failed call sends nothing |
| `DropboxClient.StoredFileInWorkingFolder` | src/test/java/org/jenkinsci/plugins/publishoverdropbox/domain/DropboxV2Test.java:151-183 | a bare name lands in the working folder under that name at `folder/lower(name)`, and retrieving that path returns it |
| `DropboxClient.StoreIntoEmptyFolder` | src/test/java/org/jenkinsci/plugins/publishoverdropbox/domain/DropboxV2Test.java:246-261 | after storing into an empty working folder, its listing holds exactly that file |
| `ClientScenarios.SetUpAsWritten` | src/test/java/org/jenkinsci/plugins/publishoverdropbox/domain/DropboxV2Test.java:56-64 | the fixture as written: an empty token skips the test before any call (the `assumeTrue` guard); otherwise it fails exactly on a rejected token, and only with `InvalidAccessToken`; afterwards nothing is stored at or inside `/folder` when the account held no file there and nothing inside a missing `/folder`, and every entry outside is unchanged; the client `sut` differs from a fresh one only in its working folder, which is `/folder` exactly when that folder existed |
| `ClientScenarios.LeftoverFolderNests` | src/test/java/org/jenkinsci/plugins/publishoverdropbox/domain/DropboxV2Test.java:56-149 | with `/folder` left in the account, the written fixture leaves `sut` in the deleted folder, so the tests' `makeDirectory(folder)` creates `/folder/folder` and `changeWorkingDirectory(folder)` moves there, not to `/folder` |
| `ClientScenarios.SetUp` | src/test/java/org/jenkinsci/plugins/publishoverdropbox/domain/DropboxV2Test.java:56-64 | the corrected fixture (see Findings): skips the test exactly on an empty token and fails exactly on a rejected one; otherwise leaves the test's client exactly a fresh client at the root, and the server exactly as the written fixture leaves it |
| `ClientScenarios.MakeTwice` | src/test/java/org/jenkinsci/plugins/publishoverdropbox/domain/DropboxV2Test.java:130-139 | after `setUp`, with its client and server, making the same folder twice returns the same folder `/folder` both times, on any account `setUp` can clear: no file at `/folder` and nothing inside a missing `/folder` |
| `ClientScenarios.MakeExistingDirectory` | src/test/java/org/jenkinsci/plugins/publishoverdropbox/domain/DropboxV2Test.java:130-139 | after `setUp`, `makeDirectory("tests")` twice returns the folder named `tests` both times, on any account `setUp` can clear: no file at `/tests` and nothing inside a missing `/tests` |
| `ClientScenarios.MakeFresh` | src/test/java/org/jenkinsci/plugins/publishoverdropbox/domain/DropboxV2Test.java:121-128 | with nothing at or inside `/folder`, making `folder` from the root adds exactly `/folder` and changes nothing else |
| `ClientScenarios.EnterMade` | src/test/java/org/jenkinsci/plugins/publishoverdropbox/domain/DropboxV2Test.java:141-149 | changing into the folder just made sets the working folder's `pathLower` to `/folder` |
| `ClientScenarios.LoneFolderEmpty` | src/test/java/org/jenkinsci/plugins/publishoverdropbox/domain/DropboxV2Test.java:121-128 | a folder added where nothing was stored at or inside it has an empty listing |
| `ClientScenarios.StoreInNewFolder` | src/test/java/org/jenkinsci/plugins/publishoverdropbox/domain/DropboxV2Test.java:151-165 | from `setUp`'s client, which is a fresh one, and a server with nothing at or inside `/folder`: make, enter and store; the file is retrievable at `/folder/name` with that name and the payload's size for any chunk size, and it is the folder's only entry |
| `ClientScenarios.StoreNamed` | src/test/java/org/jenkinsci/plugins/publishoverdropbox/domain/DropboxV2Test.java:151-183 | `setUp`, then the same with its client and server, for names given as text, with the full path the test retrieves |
| `ClientScenarios.StoreSmallFile` | src/test/java/org/jenkinsci/plugins/publishoverdropbox/domain/DropboxV2Test.java:151-165 | after `setUp`, `simplefile.txt` in `tests` has size 11 and `pathLower` `/tests/simplefile.txt`, on any account `setUp` can clear: no file at `/tests` and nothing inside a missing `/tests` |
| `ClientScenarios.StoreSpecialCharacterFile` | src/test/java/org/jenkinsci/plugins/publishoverdropbox/domain/DropboxV2Test.java:167-183 | after `setUp`, the non-ASCII file and folder names are kept, with `pathLower` `/t∂sts/simpl∂filé.txt`, on any account `setUp` can clear: no file at `/t∂sts` and nothing inside a missing `/t∂sts` |
| `ClientScenarios.UploadNamed` | src/test/java/org/jenkinsci/plugins/publishoverdropbox/domain/DropboxV2Test.java:202-243 | after `setUp`, with its client and server, an upload with any positive chunk size stores the full payload size under the name and path asked |
| `ClientScenarios.UploadInChunks` | src/test/java/org/jenkinsci/plugins/publishoverdropbox/domain/DropboxV2Test.java:202-243 | after `setUp`, 1100 bytes sent in two chunks or in four uneven chunks are each stored with size 1100, name `2chunks-file.txt` and `pathLower` `/tests/2chunks-file.txt`, on any account `setUp` can clear: no file at `/tests` and nothing inside a missing `/tests` |
| `ClientScenarios.CleanAndPruneIn` | src/test/java/org/jenkinsci/plugins/publishoverdropbox/domain/DropboxV2Test.java:185-261 | after `setUp`, with its client and server, and storing one file: cleaning leaves the folder retrievable and empty; pruning for one day instead leaves one entry |
| `ClientScenarios.CleanAndPrune` | src/test/java/org/jenkinsci/plugins/publishoverdropbox/domain/DropboxV2Test.java:185-261 | the same for `tests` and `simplefile.txt`, on any account `setUp` can clear: no file at `/tests` and nothing inside a missing `/tests` |
| `PublishStep.NewStep` | src/main/java/org/jenkinsci/plugins/publishoverdropbox/impl/step/DropboxPublishStep.java:53-70 | the three constructor arguments are stored verbatim and read back by the getters; every other field has its Java default |
| `PublishStep.FixNull` | src/main/java/org/jenkinsci/plugins/publishoverdropbox/impl/step/DropboxPublishStep.java:84 | `null` becomes `""`; any other string is kept |
| `PublishStep.SetExcludes` | src/main/java/org/jenkinsci/plugins/publishoverdropbox/impl/step/DropboxPublishStep.java:82-85 | stores `""` for null and the argument otherwise, and changes no other field |
| `PublishStep.SetRemovePrefix` | src/main/java/org/jenkinsci/plugins/publishoverdropbox/impl/step/DropboxPublishStep.java:91-94 | stores `""` for null and the argument otherwise, and changes no other field |
| `PublishStep.SetRemoteDirectorySDF` | src/main/java/org/jenkinsci/plugins/publishoverdropbox/impl/step/DropboxPublishStep.java:100-103 | updates only its own field |
| `PublishStep.SetFlatten` | src/main/java/org/jenkinsci/plugins/publishoverdropbox/impl/step/DropboxPublishStep.java:109-112 | updates only its own field |
| `PublishStep.SetCleanRemote` | src/main/java/org/jenkinsci/plugins/publishoverdropbox/impl/step/DropboxPublishStep.java:118-121 | updates only its own field |
| `PublishStep.SetPruneRoot` | src/main/java/org/jenkinsci/plugins/publishoverdropbox/impl/step/DropboxPublishStep.java:127-130 | updates only its own field |
| `PublishStep.SetPruneDays` | src/main/java/org/jenkinsci/plugins/publishoverdropbox/impl/step/DropboxPublishStep.java:136-139 | stores a positive argument and 0 otherwise, so the count is never negative; no other field changes |
| `PublishStep.GetTransfers` | src/main/java/org/jenkinsci/plugins/publishoverdropbox/impl/step/DropboxPublishStep.java:72-76 | exactly one transfer, carrying the step's nine fields in constructor order |
| `PublishStep.TransferRoundTrip` | src/main/java/org/jenkinsci/plugins/publishoverdropbox/impl/step/DropboxPublishStep.java:72-76 | the transfer and the configuration name give the step back, so no field is lost |
| `PublishStep.SettersKeepValid` | src/main/java/org/jenkinsci/plugins/publishoverdropbox/impl/step/DropboxPublishStep.java:82-139 | every setter keeps the day count non-negative, and the transfer reports the value set |

## Left out

- The real HTTP and JSON traffic is not modelled. This covers request execution, the effect of the timeout on a connection, and reading the response. Each remote call is a function of the abstract server, so the call either succeeds or fails with a `RestError`. Transport failures in the middle of an upload session are not modelled.
- The upload session id assigned by the server is a parameter of `StoreFile`.
- The current time is a parameter (`now`, in seconds) of `StoreFile` and `PruneFolder`.
- `URLEncoder.encode` (UTF-8 percent-encoding, `+` for space) is a library call. It is the function parameter `enc`, and the only assumption made about it is that it never emits `&` or `=`.
- `FormBuilder.build`'s `UnsupportedEncodingException` cannot occur with the fixed `UTF-8` name, so it is not modelled.
- The hex letter case of `httpHeaderEncode` is not fixed by the test, which only uses the digits 0-9. The model emits lower-case letters, and its decoder accepts both cases.
- HeaderEncoding.HttpHeaderRoundTrip: the round trip is stated only for inputs without a backslash. The escaper passes a literal backslash through unchanged, so `EscapeCollision` shows two inputs with the same header value.
- Timestamps.ParseDate: only the shape of the timestamp is checked, not calendar ranges (a month of 13 parses). Converting to an instant in a time zone (`Calendar`, local time) is not modelled.
- Paths.Lower: full Unicode case folding is not modelled; only ASCII A-Z are folded. The tests use names that are already lower case.
- The threshold of `setTimeout` is set by the test only to somewhere in 214..60001. The model uses `MinTimeout = 60000` and accepts values at or above it.
- The default chunk size of `DropboxV2` is not visible. The model uses 4 MiB; only its positivity matters.
- `storeFile`'s declared length is taken to be the payload's length, which is what every test call passes.
- DropboxClient.StoreFile: requires a positive `chunkSize`, a public field the source leaves to its callers.
- `storeFile` replaces an existing file at the same path. This is a modelling choice, since no test stores over a file.
- The store is a flat map. Parent folders are neither checked nor created by `makeDirectory` or `storeFile`.
- `cleanWorkingFolder` removes every key inside the working folder. This equals deleting each direct entry recursively when every entry's parent exists.
- DropboxClient.ListFilesOfFolder: pagination cursors are not modelled; the listing is returned whole. It is a map keyed by path, so the listing order is not modelled.
- `pruneFolder` prunes only direct file entries. Folders carry no modification time and are kept. The age comparison is strictly greater than `days` × 86400 seconds.
- Java `int` fields (`timeout`, `pruneDays`, `chunkSize`) are unbounded integers. The cutoff arithmetic of `pruneFolder` is not visible; the model computes `days` × 86400 in unbounded integers.
- `DropboxV2.convertAuthorizationToAccessCode` and `DropboxTokenImpl` are a single network exchange wrapped in Jenkins credential classes, so they are not modelled.
- `DropboxPublishStepExecution` (thread pool, Jenkins step context, cancellation) and `DropboxPublishStep.DescriptorImpl` (extension registry) are host plumbing, so they are not modelled.
- Paths.Resolve: paths are not normalised. Redundant or trailing separators are not collapsed (`tests/` names a different key than `tests`). `RetrieveMetaData` and `PruneFolder` use their path as given, so `/` names the root only for `changeWorkingDirectory`.
- ChunkedUpload.Split: the last chunk is never empty. When the chunk size divides the payload, the last full chunk finishes the session, and there is no zero-length finish request. An empty payload goes out as a single request, not as start plus finish. The `DropboxV2` upload loop is not visible, and this choice gives the ceil(n / chunkSize) request count.
- FormBody: keys and values are never null. In Java a null key or value is accepted by `appendQueryParameter` and makes `build` throw from `URLEncoder.encode`.
- The tests' teardown logging is not modelled.

## Findings

| source | as written | input that shows it | evidently intended | confidence | as-written member | corrected member |
|---|---|---|---|---|---|---|
| src/test/java/org/jenkinsci/plugins/publishoverdropbox/domain/DropboxV2Test.java:56-64 | `setUp` changes `sut` into `/tests` and deletes that folder, but leaves `sut` working in it; every test then resolves `"tests"` against `/tests` | an account that still holds the folder `/tests` (for instance after a failed teardown): `makeDirectory("tests")` creates `/tests/tests`, and `testChangeWorkingDirectory` sees `/tests/tests`, not `/tests` | each test starts from the root with no `/tests`, for instance by `changeWorkingDirectory("/")` after the delete | medium, not executed; it assumes `DropboxV2` resolves relative names against the working folder, and that class is not part of this model | `ClientScenarios.SetUpAsWritten`, `ClientScenarios.LeftoverFolderNests` | `ClientScenarios.SetUp` |

=== FILE: chunked_upload.dfy ===
/** Chunked upload: a payload is cut into chunks of at most `chunkSize`
    bytes and sent as one request (when it fits) or as an upload session
    of start, append and finish requests. Each append and the finish carry
    the session id handed out by the start and the offset the server has
    acknowledged so far. */
module ChunkedUpload {

  newtype byte = x: int | 0 <= x < 256

  /** The chunks laid end to end. */
  function Flatten<T>(chunks: seq<seq<T>>): seq<T>
    decreases |chunks|
  {
    if chunks == [] then [] else chunks[0] + Flatten(chunks[1..])
  }

  /** Cuts `data` into chunks of exactly `size` elements and a last chunk
      of the rest; a payload that fits is a single chunk (so an empty
      payload is one empty chunk). */
  function Split<T>(data: seq<T>, size: nat): (chunks: seq<seq<T>>)
    requires size > 0
    ensures |chunks| >= 1
    ensures Flatten(chunks) == data
    ensures forall i :: 0 <= i < |chunks| - 1 ==> |chunks[i]| == size
    ensures 0 < |chunks[|chunks| - 1]| <= size || data == []
    decreases |data|
  {
    if |data| <= size then [data]
    else
      var rest := Split(data[size..], size);
      assert data[..size] + Flatten(rest) == data;
      [data[..size]] + rest
  }

  /** The number of requests for an `n`-byte payload: one when it fits,
      otherwise one per full chunk plus the rest. */
  function ChunkCount(n: nat, size: nat): (k: nat)
    requires size > 0
    ensures k >= 1
    decreases n
  {
    if n <= size then 1 else 1 + ChunkCount(n - size, size)
  }

  /** `ChunkCount` is the payload length divided by the chunk size,
      rounded up (and one for an empty payload). */
  lemma {:induction false} ChunkCountIsCeiling(n: nat, size: nat)
    requires size > 0
    ensures n == 0 ==> ChunkCount(n, size) == 1
    ensures n > 0 ==> (ChunkCount(n, size) - 1) * size < n <= ChunkCount(n, size) * size
    decreases n
  {
    if n > size {
      var k := ChunkCount(n - size, size);
      ChunkCountIsCeiling(n - size, size);
      assert (k + 1) * size == k * size + size;
      assert (k + 1 - 1) * size == (k - 1) * size + size;
    }
  }

  lemma {:induction false} SplitCount<T>(data: seq<T>, size: nat)
    requires size > 0
    ensures |Split(data, size)| == ChunkCount(|data|, size)
    decreases |data|
  {
    if |data| > size {
      SplitCount(data[size..], size);
    }
  }

  lemma {:induction false} FlattenSnoc<T>(chunks: seq<seq<T>>, last: seq<T>)
    ensures Flatten(chunks + [last]) == Flatten(chunks) + last
    decreases |chunks|
  {
    if chunks == [] {
      assert [] + [last] == [last];
    } else {
      assert (chunks + [last])[1..] == chunks[1..] + [last];
      FlattenSnoc(chunks[1..], last);
    }
  }

  // ---------------------------------------------------------------------
  // The protocol.

  datatype Request =
    | Single(payload: seq<byte>)
    | Start(payload: seq<byte>)
    | Append(sessionId: string, offset: nat, payload: seq<byte>)
    | Finish(sessionId: string, offset: nat, payload: seq<byte>)

  /** The client's side of a session. */
  datatype UploadState = NotStarted | InSession(sessionId: string, offset: nat) | Committed(size: nat)

  /** The server's side: what it has received, and whether the upload
      was committed into a file or refused. */
  datatype ServerSession = Idle | Open(sessionId: string, received: seq<byte>) | Closed(content: seq<byte>) | Refused

  /** How the server takes one request; `sessionId` is the id it assigns
      on a start. Appends and the finish must name the open session and
      the exact offset received so far. */
  function Accept(s: ServerSession, r: Request, sessionId: string): ServerSession {
    match r
    case Single(p) => if s.Idle? then Closed(p) else Refused
    case Start(p) => if s.Idle? then Open(sessionId, p) else Refused
    case Append(id, off, p) =>
      if s.Open? && s.sessionId == id && off == |s.received| then Open(id, s.received + p) else Refused
    case Finish(id, off, p) =>
      if s.Open? && s.sessionId == id && off == |s.received| then Closed(s.received + p) else Refused
  }

  /** The server's state after a sequence of requests. */
  function Replay(s: ServerSession, requests: seq<Request>, sessionId: string): ServerSession
    decreases |requests|
  {
    if requests == [] then s else Replay(Accept(s, requests[0], sessionId), requests[1..], sessionId)
  }

  lemma {:induction false} ReplaySnoc(s: ServerSession, requests: seq<Request>, r: Request, sessionId: string)
    ensures Replay(s, requests + [r], sessionId) == Accept(Replay(s, requests, sessionId), r, sessionId)
    decreases |requests|
  {
    if requests == [] {
      assert [] + [r] == [r];
    } else {
      assert (requests + [r])[1..] == requests[1..] + [r];
      ReplaySnoc(Accept(s, requests[0], sessionId), requests[1..], r, sessionId);
    }
  }

  function PayloadOf(r: Request): seq<byte> {
    r.payload
  }

  /** Sends the chunks in order: a single request for one chunk, otherwise
      start, appends, finish, each append and the finish at the offset
      reached so far. The server, replaying the requests, commits exactly
      the concatenated chunks, and the client ends in `Committed` with
      that many bytes. */
  method Upload(chunks: seq<seq<byte>>, sessionId: string) returns (requests: seq<Request>, state: UploadState)
    requires |chunks| >= 1
    ensures |requests| == |chunks|
    ensures forall i :: 0 <= i < |chunks| ==> PayloadOf(requests[i]) == chunks[i]
    ensures forall i :: 0 < i < |requests| ==>
      (requests[i].Append? || requests[i].Finish?) && requests[i].offset == |Flatten(chunks[..i])|
    ensures Replay(Idle, requests, sessionId) == Closed(Flatten(chunks))
    ensures state == Committed(|Flatten(chunks)|)
  {
    if |chunks| == 1 {
      requests := [Single(chunks[0])];
      state := Committed(|chunks[0]|);
      assert Flatten(chunks) == chunks[0] + Flatten(chunks[1..]);
      return;
    }
    requests := [Start(chunks[0])];
    state := InSession(sessionId, |chunks[0]|);
    assert chunks[..1] == [chunks[0]];
    assert Flatten(chunks[..1]) == chunks[0] + Flatten(chunks[..1][1..]);
    var i := 1;
    while i < |chunks| - 1
      invariant 1 <= i <= |chunks| - 1
      invariant |requests| == i
      invariant forall j :: 0 <= j < i ==> PayloadOf(requests[j]) == chunks[j]
      invariant forall j :: 0 < j < i ==> requests[j].Append? && requests[j].offset == |Flatten(chunks[..j])|
      invariant state == InSession(sessionId, |Flatten(chunks[..i])|)
      invariant Replay(Idle, requests, sessionId) == Open(sessionId, Flatten(chunks[..i]))
    {
      var r := Append(sessionId, state.offset, chunks[i]);
      ReplaySnoc(Idle, requests, r, sessionId);
      FlattenSnoc(chunks[..i], chunks[i]);
      assert chunks[..i + 1] == chunks[..i] + [chunks[i]];
      requests := requests + [r];
      state := InSession(sessionId, state.offset + |chunks[i]|);
      i := i + 1;
    }
    var last := Finish(sessionId, state.offset, chunks[i]);
    ReplaySnoc(Idle, requests, last, sessionId);
    FlattenSnoc(chunks[..i], chunks[i]);
    assert chunks[..i] + [chunks[i]] == chunks;
    requests := requests + [last];
    state := Committed(state.offset + |chunks[i]|);
  }

  /** A payload sent as its chunks arrives whole. */
  method SendPayload(data: seq<byte>, chunkSize: nat, sessionId: string) returns (requests: seq<Request>, state: UploadState)
    requires chunkSize > 0
    ensures |requests| == ChunkCount(|data|, chunkSize)
    ensures |data| <= chunkSize <==> (|requests| == 1 && requests[0].Single?)
    ensures forall i :: 0 <= i < |requests| ==> |PayloadOf(requests[i])| <= chunkSize
    ensures Replay(Idle, requests, sessionId) == Closed(data)
    ensures state == Committed(|data|)
  {
    var chunks := Split(data, chunkSize);
    SplitCount(data, chunkSize);
    requests, state := Upload(chunks, sessionId);
    if |data| > chunkSize {
      assert |chunks| >= 2;
      assert requests[1].Append? || requests[1].Finish?;
    }
  }

  /** The two chunk sizes of `DropboxV2Test`'s upload tests, for a payload of 1100
      bytes (100 times "Hello world"): half plus one gives two chunks, a
      third minus ten gives four uneven ones. */
  lemma TestChunkCounts()
    ensures ChunkCount(1100, 1100 / 2 + 1) == 2
    ensures ChunkCount(1100, 1100 / 3 - 10) == 4
  {
  }
}

=== FILE: client_scenarios.dfy ===
/** The storage client's test sequences, restated as lemmas and methods
    about the model. Each test starts from its fixture's `setUp`, which
    skips the test when the token is empty, and otherwise moves the test's
    client into `/tests` and deletes that folder when it exists. As written, the client then stays in the deleted folder, so
    with a `/tests` left over from an earlier run the tests work one level
    too deep (`SetUpAsWritten`, `LeftoverFolderNests`). The scenarios use
    the evidently intended fixture, `SetUp`, which also returns the client
    to the root; they hold, with a non-empty token, for any account that
    fixture can start from. */
module ClientScenarios {
  import opened Wrappers
  import opened Paths
  import opened DropboxClient
  import ChunkedUpload

  /** Nothing is stored at `w` or inside it. */
  predicate Clear(store: Store, w: string) {
    forall k :: k in store ==> k != w && !Under(k, w)
  }

  /** What the test account may hold before `setUp`: anything, except a
      file at `w`, or entries inside `w` when `w` itself is missing. */
  predicate Fixture(store: Store, w: string) {
    && (w in store ==> store[w].FolderEntry?)
    && (w !in store ==> forall k :: k in store ==> !Under(k, w))
  }

  /** How the fixture's `setUp` ends: JUnit skips the test (the
      `assumeTrue` on a non-empty token fails), a call fails, or the test
      goes on with its client `sut` and the server. */
  datatype Start = Skipped | Failed(error: RestError) | Ready(sut: Client, server: Server)

  /** The fixture's `setUp` as written: an empty token skips the test
      before any call; otherwise a fresh client `sut` changes into
      `/folder` and, when that succeeds, deletes its working folder.
      Afterwards nothing is left at or inside `/folder` and everything
      else is as it was, but `sut` is still inside `/folder` when that
      folder existed. */
  function SetUpAsWritten(token: string, account: Server, folder: string): (r: Start)
    requires Slash !in folder && folder != "" && Lower(folder) == folder
    ensures r.Skipped? <==> token == ""
    ensures r.Ready? <==> token != "" && token in account.validTokens
    ensures r.Failed? ==> r.error == InvalidAccessToken
    ensures r.Ready? ==> r.server.validTokens == account.validTokens
    ensures r.Ready? && Fixture(account.store, [Slash] + folder) ==> Clear(r.server.store, [Slash] + folder)
    ensures r.Ready? ==> forall k :: k in account.store && k != [Slash] + folder && !Under(k, [Slash] + folder) ==>
      k in r.server.store && r.server.store[k] == account.store[k]
    ensures r.Ready? ==> r.sut.(workingFolder := Root) == NewClient(token)
    ensures r.Ready? ==> (r.sut.workingFolder.pathLower ==
      if [Slash] + folder in account.store && account.store[[Slash] + folder].FolderEntry? then [Slash] + folder else "")
  {
    if token == "" then Skipped
    else
      var c := NewClient(token);
      LowerFacts([Slash], folder);
      assert KeyOf(c, [Slash] + folder) == [Slash] + folder;
      match ChangeWorkingDirectory(c, account, [Slash] + folder)
      case Err(e) => Failed(e)
      case Ok((sut, found)) =>
        if !found then Ready(sut, account)
        else
          match Delete(sut, account, sut.workingFolder)
          case Err(e) => Failed(e)
          case Ok(s) => Ready(sut, s)
  }

  /** With a `/folder` left in the account, the written `setUp` leaves
      `sut` in the folder it deleted: the test's `makeDirectory(folder)`
      then creates `/folder/folder`, and `changeWorkingDirectory(folder)`
      moves there, so the working folder is not `/folder` as the tests
      expect. */
  lemma LeftoverFolderNests(token: string, account: Server, folder: string)
    requires Slash !in folder && folder != "" && Lower(folder) == folder
    requires token != "" && token in account.validTokens
    requires [Slash] + folder in account.store && account.store[[Slash] + folder].FolderEntry?
    ensures var (sut, s) := (SetUpAsWritten(token, account, folder).sut, SetUpAsWritten(token, account, folder).server);
      var nested := [Slash] + folder + [Slash] + folder;
      && sut.workingFolder.pathLower == [Slash] + folder
      && MakeDirectory(sut, s, folder) == Ok((s.(store := s.store[nested := FolderEntry(folder)]), FolderMetadata(folder, nested)))
      && ChangeWorkingDirectory(sut, s.(store := s.store[nested := FolderEntry(folder)]), folder)
           == Ok((sut.(workingFolder := FolderMetadata(folder, nested)), true))
      && nested != [Slash] + folder
  {
    var w := [Slash] + folder;
    var nested := w + [Slash] + folder;
    var start := SetUpAsWritten(token, account, folder);
    var sut, s := start.sut, start.server;
    LowerFacts([Slash], folder);
    ResolveBareName(w, folder);
    assert KeyOf(sut, folder) == nested;
    assert Under(nested, w);
    assert nested !in s.store;
    MakeDirectoryNew(sut, s, folder);
    ChangeIntoFolder(sut, s.(store := s.store[nested := FolderEntry(folder)]), folder);
  }

  /** The evidently intended `setUp`: as written, then back to the root
      with `changeWorkingDirectory("/")`. The test's client is then a fresh
      one whatever the account held. */
  function SetUp(token: string, account: Server, folder: string): (r: Start)
    requires Slash !in folder && folder != "" && Lower(folder) == folder
    ensures r.Skipped? <==> token == ""
    ensures r.Ready? <==> token != "" && token in account.validTokens
    ensures r.Ready? ==> r.sut == NewClient(token)
    ensures r.Ready? ==> r.server == SetUpAsWritten(token, account, folder).server
  {
    match SetUpAsWritten(token, account, folder)
    case Ready(sut, s) =>
      (match ChangeWorkingDirectory(sut, s, [Slash])
       case Err(e) => Failed(e)
       case Ok((home, _)) => Ready(home, s))
    case other => other
  }

  /** `makeDirectory(folder)` from the root, with nothing at `/folder`,
      adds exactly that folder. */
  lemma MakeFresh(token: string, s: Server, folder: string)
    requires Slash !in folder && folder != "" && Lower(folder) == folder
    requires Authorized(NewClient(token), s) && Clear(s.store, [Slash] + folder)
    ensures MakeDirectory(NewClient(token), s, folder)
      == Ok((s.(store := s.store[[Slash] + folder := FolderEntry(folder)]), FolderMetadata(folder, [Slash] + folder)))
  {
    var c := NewClient(token);
    var w := [Slash] + folder;
    RootKey(c, folder);
    assert w !in s.store;
    MakeDirectoryNew(c, s, folder);
  }

  /** ... and `changeWorkingDirectory(folder)` then moves into it. */
  lemma EnterMade(token: string, s: Server, folder: string)
    requires Slash !in folder && folder != "" && Lower(folder) == folder
    requires Authorized(NewClient(token), s)
    requires [Slash] + folder in s.store && s.store[[Slash] + folder] == FolderEntry(folder)
    ensures var c := NewClient(token);
      ChangeWorkingDirectory(c, s, folder)
        == Ok((c.(workingFolder := FolderMetadata(folder, [Slash] + folder)), true))
  {
    var c := NewClient(token);
    RootKey(c, folder);
    ChangeIntoFolder(c, s, folder);
  }

  /** From the root, a bare lower-case name is keyed `/name` and is its
      own last component. */
  lemma RootKey(c: Client, folder: string)
    requires c.workingFolder.pathLower == ""
    requires Slash !in folder && Lower(folder) == folder
    ensures KeyOf(c, folder) == [Slash] + folder
    ensures Leaf(Resolve(c.workingFolder.pathLower, folder)) == folder
  {
    ResolveBareName("", folder);
    assert [] + [Slash] + folder == [Slash] + folder;
  }

  /** A folder added where nothing was has an empty listing. */
  lemma LoneFolderEmpty(store: Store, w: string, e: Entry)
    requires Clear(store, w)
    ensures Listing(store[w := e], w) == map[]
  {
    forall k | k in store[w := e] ensures !IsChild(k, w) {
      ChildUnder(k, w);
      ChildUnder(w, w);
    }
    assert Listing(store[w := e], w).Keys == {};
  }

  /** Making a folder twice from the root after `setUp`: both calls
      return the same folder, named as asked, the second without error. */
  method MakeTwice(token: string, account: Server, folder: string) returns (first: Metadata, second: Metadata)
    requires Slash !in folder && folder != "" && Lower(folder) == folder
    requires token != "" && token in account.validTokens && Fixture(account.store, [Slash] + folder)
    ensures first == FolderMetadata(folder, [Slash] + folder) && second == first
  {
    var start := SetUp(token, account, folder);
    var c, s := start.sut, start.server;
    MakeFresh(token, s, folder);
    var r1 := MakeDirectory(c, s, folder);
    first := r1.value.1;
    MakeDirectoryIdempotent(c, s, folder);
    var r2 := MakeDirectory(c, r1.value.0, folder);
    second := r2.value.1;
  }

  method MakeExistingDirectory(token: string, account: Server) returns (first: Metadata, second: Metadata)
    requires token != "" && token in account.validTokens && Fixture(account.store, "/tests")
    ensures first.FolderMetadata? && first.name == "tests" && second == first
  {
    assert [Slash] + "tests" == "/tests";
    first, second := MakeTwice(token, account, "tests");
  }

  /** Make `folder`, move into it, store `name`: the file is found at
      `/folder/name` with that name and the payload's size, whatever the
      chunk size, and it is the folder's only entry. */
  method StoreInNewFolder(token: string, home: Client, s0: Server, folder: string, name: string, content: seq<ChunkedUpload.byte>, chunkSize: nat, now: int)
    returns (c: Client, s: Server, m: Metadata)
    requires Slash !in folder && folder != "" && Lower(folder) == folder
    requires Slash !in name && name != "" && Lower(name) == name
    requires home == NewClient(token)
    requires Authorized(home, s0) && Clear(s0.store, [Slash] + folder)
    requires chunkSize > 0
    ensures c.workingFolder == FolderMetadata(folder, [Slash] + folder)
    ensures Valid(c) && Authorized(c, s)
    ensures m == FileMetadata(name, [Slash] + folder + [Slash] + name, |content|, now)
    ensures [Slash] + folder in s.store && s.store[[Slash] + folder] == FolderEntry(folder)
    ensures RetrieveMetaData(c, s, [Slash] + folder + [Slash] + name) == Ok(m)
    ensures Listing(s.store, c.workingFolder.pathLower).Keys == {m.pathLower}
  {
    var w := [Slash] + folder;
    MakeFresh(token, s0, folder);
    var s1 := s0.(store := s0.store[w := FolderEntry(folder)]);
    EnterMade(token, s1, folder);
    c := home.(workingFolder := FolderMetadata(folder, w), chunkSize := chunkSize);
    assert Valid(c);
    LoneFolderEmpty(s0.store, w, FolderEntry(folder));
    ResolveBareName(w, name);
    var key := KeyOf(c, name);
    assert key == w + [Slash] + name;
    assert key != w;
    var stored, _ := StoreFile(c, s1, name, content, "session", now);
    s, m := stored.value.0, stored.value.1;
    StoredFileInWorkingFolder(c, s1, name, s, m, content, now);
    StoreIntoEmptyFolder(c, s1, name, s, m, content, now);
  }

  /** `simplefile.txt` in `tests`, with an 11-byte payload. */
  method StoreSmallFile(token: string, account: Server, content: seq<ChunkedUpload.byte>, now: int) returns (m: Metadata)
    requires token != "" && token in account.validTokens && Fixture(account.store, "/tests")
    requires |content| == 11
    ensures m.FileMetadata? && m.size == 11 && m.modified == now
    ensures m.name == "simplefile.txt"
    ensures m.pathLower == "/tests/simplefile.txt"
  {
    var folder, name := "tests", "simplefile.txt";
    LowerOfLower(folder);
    LowerOfLower(name);
    m := StoreNamed(token, account, folder, "/tests", name, "/tests/simplefile.txt", content, now);
  }

  /** The non-ASCII `simpl∂filé.txt` in `t∂sts`. */
  method StoreSpecialCharacterFile(token: string, account: Server, content: seq<ChunkedUpload.byte>, now: int) returns (m: Metadata)
    requires token != "" && token in account.validTokens && Fixture(account.store, "/t\U{2202}sts")
    requires |content| == 11
    ensures m.FileMetadata? && m.size == 11 && m.modified == now
    ensures m.name == "simpl\U{2202}fil\U{e9}.txt"
    ensures m.pathLower == "/t\U{2202}sts/simpl\U{2202}fil\U{e9}.txt"
  {
    var folder, name := "t\U{2202}sts", "simpl\U{2202}fil\U{e9}.txt";
    LowerOfLower(folder);
    LowerOfLower(name);
    m := StoreNamed(token, account, folder, "/t\U{2202}sts", name, "/t\U{2202}sts/simpl\U{2202}fil\U{e9}.txt", content, now);
  }

  /** `setUp`, then `StoreInNewFolder` for names given as text, with the
      full path the test retrieves. */
  method StoreNamed(token: string, account: Server, folder: string, w: string, name: string, full: string, content: seq<ChunkedUpload.byte>, now: int)
    returns (m: Metadata)
    requires Slash !in folder && folder != "" && Lower(folder) == folder
    requires Slash !in name && name != "" && Lower(name) == name
    requires w == [Slash] + folder && full == w + [Slash] + name
    requires token != "" && token in account.validTokens && Fixture(account.store, w)
    ensures m.FileMetadata? && m.size == |content| && m.modified == now
    ensures m.name == name && m.pathLower == full
  {
    var start := SetUp(token, account, folder);
    var _, _, m1 := StoreInNewFolder(token, start.sut, start.server, folder, name, content, DefaultChunkSize, now);
    m := m1;
  }

  /** Uploads of 1100 bytes with chunk sizes forcing two and four
      requests still store 1100 bytes under the name and path asked. */
  method UploadInChunks(token: string, account: Server, content: seq<ChunkedUpload.byte>, now: int) returns (two: Metadata, four: Metadata)
    requires token != "" && token in account.validTokens && Fixture(account.store, "/tests")
    requires |content| == 1100
    ensures two.FileMetadata? && two.size == 1100
    ensures two.pathLower == "/tests/2chunks-file.txt" && two.name == "2chunks-file.txt"
    ensures four.FileMetadata? && four.size == 1100
    ensures four.pathLower == "/tests/2chunks-file.txt" && four.name == "2chunks-file.txt"
  {
    var folder, name := "tests", "2chunks-file.txt";
    LowerOfLower(folder);
    LowerOfLower(name);
    assert Slash !in name && "/tests" == [Slash] + folder;
    assert "/tests/2chunks-file.txt" == "/tests" + [Slash] + name;
    two := UploadNamed(token, account, folder, "/tests", name, "/tests/2chunks-file.txt", content, 1100 / 2 + 1, now);
    four := UploadNamed(token, account, folder, "/tests", name, "/tests/2chunks-file.txt", content, 1100 / 3 - 10, now);
  }

  method UploadNamed(token: string, account: Server, folder: string, w: string, name: string, full: string,
                     content: seq<ChunkedUpload.byte>, chunkSize: nat, now: int)
    returns (m: Metadata)
    requires Slash !in folder && folder != "" && Lower(folder) == folder
    requires Slash !in name && name != "" && Lower(name) == name
    requires w == [Slash] + folder && full == w + [Slash] + name
    requires token != "" && token in account.validTokens && Fixture(account.store, w)
    requires chunkSize > 0
    ensures m.FileMetadata? && m.size == |content| && m.name == name && m.pathLower == full
  {
    var start := SetUp(token, account, folder);
    var _, _, m1 := StoreInNewFolder(token, start.sut, start.server, folder, name, content, chunkSize, now);
    m := m1;
  }

  /** After `setUp` and storing a file, cleaning the working folder keeps
      the folder and empties it; pruning it for one day instead keeps the
      file. */
  method CleanAndPruneIn(token: string, account: Server, folder: string, name: string, content: seq<ChunkedUpload.byte>, now: int)
    returns (afterClean: map<string, Metadata>, afterPrune: map<string, Metadata>, found: Metadata)
    requires Slash !in folder && folder != "" && Lower(folder) == folder
    requires Slash !in name && name != "" && Lower(name) == name
    requires token != "" && token in account.validTokens && Fixture(account.store, [Slash] + folder)
    ensures found == FolderMetadata(folder, [Slash] + folder)
    ensures |afterClean| == 0 && |afterPrune| == 1
  {
    var start := SetUp(token, account, folder);
    var c, s, m := StoreInNewFolder(token, start.sut, start.server, folder, name, content, DefaultChunkSize, now);
    var w := [Slash] + folder;
    var cleaned := CleanWorkingFolder(c, s);
    assert cleaned.Ok?;
    var s1 := cleaned.value;
    assert w in s1.store && s1.store[w] == FolderEntry(folder) by {
      ChildUnder(w, w);
    }
    var retrieved := RetrieveMetaData(c, s1, w);
    LowerFacts(w, []);
    found := retrieved.value;
    var listed := ListFilesOfFolder(c, s1, found);
    afterClean := listed.value;
    assert afterClean == Listing(s1.store, w);
    assert forall k :: k in s.store && IsChild(k, w) ==> !Expired(s.store[k], 1, now) by {
      forall k | k in s.store && IsChild(k, w) ensures !Expired(s.store[k], 1, now) {
        assert k in Listing(s.store, w);
      }
    }
    PruneKeepsRecent(c, s, w, 1, now);
    var pruned := PruneFolder(c, s, w, 1, now);
    var listed2 := ListFilesOfFolder(c, pruned.value, found);
    afterPrune := listed2.value;
    assert afterPrune.Keys == {m.pathLower};
  }

  method CleanAndPrune(token: string, account: Server, content: seq<ChunkedUpload.byte>, now: int)
    returns (afterClean: map<string, Metadata>, afterPrune: map<string, Metadata>, found: Metadata)
    requires token != "" && token in account.validTokens && Fixture(account.store, "/tests")
    ensures found.name == "tests" && found.pathLower == "/tests"
    ensures |afterClean| == 0 && |afterPrune| == 1
  {
    assert [Slash] + "tests" == "/tests";
    afterClean, afterPrune, found := CleanAndPruneIn(token, account, "tests", "simplefile.txt", content, now);
  }
}

=== FILE: dropbox_client.dfy ===
/** The `DropboxV2` storage client. The remote store is a map from
    lower-cased absolute path to its entry; the server is that store plus
    the set of access tokens it accepts. Every remote operation takes the
    client and the server and returns the new server (if it changes) or
    the `RestException` the call would raise. */
module DropboxClient {
  import opened Wrappers
  import opened Paths
  import ChunkedUpload

  type byte = ChunkedUpload.byte

  datatype Entry = FolderEntry(name: string) | FileEntry(name: string, size: nat, modified: int)

  /** Keyed by `pathLower`; the root folder is implicit. */
  type Store = map<string, Entry>

  datatype Server = Server(validTokens: set<string>, store: Store)

  datatype Metadata =
    | FolderMetadata(name: string, pathLower: string)
    | FileMetadata(name: string, pathLower: string, size: nat, modified: int)

  /** The kinds of `RestException` the model distinguishes. */
  datatype RestError =
    | InvalidAccessToken
    | NotFound(path: string)
    | Conflict(path: string)
    | MalformedPath(path: string)

  /** `getTimeout` before any timeout was accepted. */
  const NoTimeout: int := -1
  /** The smallest timeout `setTimeout` accepts, in milliseconds. */
  const MinTimeout: int := 60000
  const DefaultChunkSize: nat := 4 * 1024 * 1024
  const SecondsPerDay: nat := 86400

  const Root: Metadata := FolderMetadata("", "")

  datatype Client = Client(
    accessToken: string,
    connected: bool,
    timeout: int,
    workingFolder: Metadata,
    chunkSize: nat)

  /** What a client value always satisfies: the timeout is the sentinel or
      an accepted value, and the working folder is a folder named by its
      lower-cased path. */
  predicate Valid(c: Client) {
    && (c.timeout == NoTimeout || c.timeout >= MinTimeout)
    && c.workingFolder.FolderMetadata?
    && Lower(c.workingFolder.pathLower) == c.workingFolder.pathLower
  }

  predicate Authorized(c: Client, s: Server) {
    c.accessToken in s.validTokens
  }

  predicate IsFolder(store: Store, key: string) {
    key == "" || (key in store && store[key].FolderEntry?)
  }

  function MetadataOf(key: string, e: Entry): (m: Metadata)
    ensures m.pathLower == key && m.name == e.name
    ensures m.FolderMetadata? <==> e.FolderEntry?
    ensures m.FileMetadata? ==> m.size == e.size && m.modified == e.modified
  {
    match e
    case FolderEntry(n) => FolderMetadata(n, key)
    case FileEntry(n, size, modified) => FileMetadata(n, key, size, modified)
  }

  /** A fresh client: disconnected, no timeout, working in the root. */
  function NewClient(accessToken: string): (c: Client)
    ensures Valid(c)
    ensures c.accessToken == accessToken && !c.connected
    ensures c.timeout == NoTimeout && c.workingFolder == Root && c.chunkSize > 0
  {
    Client(accessToken, false, NoTimeout, Root, DefaultChunkSize)
  }

  // ---------------------------------------------------------------------
  // Local state.

  /** `setTimeout`: a value below the threshold is ignored. */
  function SetTimeout(c: Client, ms: int): (r: Client)
    ensures ms >= MinTimeout ==> r.timeout == ms
    ensures ms < MinTimeout ==> r == c
    ensures r.(timeout := c.timeout) == c
    ensures Valid(c) ==> Valid(r)
  {
    if ms >= MinTimeout then c.(timeout := ms) else c
  }

  /** `connect`: validates the token with the server; on failure the
      caller keeps the client it had. */
  function Connect(c: Client, s: Server): (r: Result<Client, RestError>)
    ensures r.Ok? <==> Authorized(c, s)
    ensures r.Ok? ==> r.value.connected && r.value.(connected := c.connected) == c
    ensures r.Err? ==> r.error == InvalidAccessToken
  {
    if Authorized(c, s) then Ok(c.(connected := true)) else Err(InvalidAccessToken)
  }

  /** `disconnect`: local only. */
  function Disconnect(c: Client): (r: Client)
    ensures !r.connected && r.(connected := c.connected) == c
  {
    c.(connected := false)
  }

  // ---------------------------------------------------------------------
  // Remote operations.

  function KeyOf(c: Client, path: string): string {
    Lower(Resolve(c.workingFolder.pathLower, path))
  }

  /** `makeDirectory`: creates the folder, or returns the existing one;
      a file in the way is a conflict. */
  function MakeDirectory(c: Client, s: Server, name: string): (r: Result<(Server, Metadata), RestError>)
    ensures var path := Resolve(c.workingFolder.pathLower, name);
      r.Ok? <==> Authorized(c, s) && Leaf(path) != "" && !(KeyOf(c, name) in s.store && s.store[KeyOf(c, name)].FileEntry?)
    ensures r.Ok? ==> var (s', m) := r.value;
      && m.FolderMetadata? && m.pathLower == KeyOf(c, name)
      && m.pathLower in s'.store && s'.store[m.pathLower] == FolderEntry(m.name)
      && s'.validTokens == s.validTokens
      && (forall k :: k != m.pathLower ==> (k in s'.store <==> k in s.store))
      && (forall k :: k in s.store && k != m.pathLower ==> s'.store[k] == s.store[k])
    ensures r.Ok? && KeyOf(c, name) in s.store ==> r.value.0 == s
    ensures r.Ok? && KeyOf(c, name) !in s.store ==> r.value.1.name == Leaf(Resolve(c.workingFolder.pathLower, name))
  {
    var path := Resolve(c.workingFolder.pathLower, name);
    var key := Lower(path);
    if !Authorized(c, s) then Err(InvalidAccessToken)
    else if Leaf(path) == "" then Err(MalformedPath(path))
    else if key in s.store then
      match s.store[key]
      case FolderEntry(n) => Ok((s, FolderMetadata(n, key)))
      case FileEntry(_, _, _) => Err(Conflict(key))
    else
      Ok((s.(store := s.store[key := FolderEntry(Leaf(path))]), FolderMetadata(Leaf(path), key)))
  }

  /** `changeWorkingDirectory`: moves to the folder when it exists and
      reports whether it did. */
  function ChangeWorkingDirectory(c: Client, s: Server, path: string): (r: Result<(Client, bool), RestError>)
    ensures r.Ok? <==> Authorized(c, s)
    ensures r.Ok? ==> (r.value.1 <==> IsFolder(s.store, KeyOf(c, path)))
    ensures r.Ok? && r.value.1 ==>
      && r.value.0.workingFolder.FolderMetadata?
      && r.value.0.workingFolder.pathLower == KeyOf(c, path)
      && r.value.0.(workingFolder := c.workingFolder) == c
    ensures r.Ok? && !r.value.1 ==> r.value.0 == c
    ensures r.Ok? && Valid(c) ==> Valid(r.value.0)
  {
    var key := KeyOf(c, path);
    if !Authorized(c, s) then Err(InvalidAccessToken)
    else if key == "" then Ok((c.(workingFolder := Root), true))
    else if key in s.store && s.store[key].FolderEntry? then
      LowerFacts(Resolve(c.workingFolder.pathLower, path), []);
      Ok((c.(workingFolder := MetadataOf(key, s.store[key])), true))
    else Ok((c, false))
  }

  /** `retrieveMetaData`: the entry at an absolute path. */
  function RetrieveMetaData(c: Client, s: Server, path: string): (r: Result<Metadata, RestError>)
    ensures r.Ok? <==> Authorized(c, s) && Lower(path) in s.store
    ensures r.Ok? ==> r.value.pathLower == Lower(path) && r.value == MetadataOf(Lower(path), s.store[Lower(path)])
    ensures r.Err? && Authorized(c, s) ==> r.error == NotFound(Lower(path))
  {
    var key := Lower(path);
    if !Authorized(c, s) then Err(InvalidAccessToken)
    else if key in s.store then Ok(MetadataOf(key, s.store[key]))
    else Err(NotFound(key))
  }

  /** The direct entries of a folder, keyed by path. */
  function Listing(store: Store, folder: string): (entries: map<string, Metadata>)
    ensures forall k :: k in entries <==> k in store && IsChild(k, folder)
    ensures forall k :: k in entries ==> entries[k] == MetadataOf(k, store[k])
  {
    map k | k in store && IsChild(k, folder) :: MetadataOf(k, store[k])
  }

  /** `listFilesOfFolder`: every direct entry of the folder. */
  function ListFilesOfFolder(c: Client, s: Server, folder: Metadata): (r: Result<map<string, Metadata>, RestError>)
    ensures r.Ok? <==> Authorized(c, s) && IsFolder(s.store, folder.pathLower)
    ensures r.Ok? ==> forall k :: k in r.value <==> k in s.store && IsChild(k, folder.pathLower)
  {
    if !Authorized(c, s) then Err(InvalidAccessToken)
    else if !IsFolder(s.store, folder.pathLower) then Err(NotFound(folder.pathLower))
    else Ok(Listing(s.store, folder.pathLower))
  }

  /** The store without `key` and everything inside it. */
  function RemoveTree(store: Store, key: string): (r: Store)
    ensures forall k :: k in r <==> k in store && k != key && !Under(k, key)
    ensures forall k :: k in r ==> r[k] == store[k]
  {
    map k | k in store && k != key && !Under(k, key) :: store[k]
  }

  /** `delete`: removes an entry, and a folder's contents with it. */
  function Delete(c: Client, s: Server, target: Metadata): (r: Result<Server, RestError>)
    ensures r.Ok? <==> Authorized(c, s) && target.pathLower in s.store
    ensures r.Ok? ==> r.value.validTokens == s.validTokens
    ensures r.Ok? ==> forall k :: k in r.value.store <==> k in s.store && k != target.pathLower && !Under(k, target.pathLower)
    ensures r.Ok? ==> forall k :: k in r.value.store ==> r.value.store[k] == s.store[k]
  {
    if !Authorized(c, s) then Err(InvalidAccessToken)
    else if target.pathLower !in s.store then Err(NotFound(target.pathLower))
    else Ok(s.(store := RemoveTree(s.store, target.pathLower)))
  }

  /** `cleanWorkingFolder`: deletes everything inside the working folder;
      the folder stays and is empty, and nothing outside it changes. */
  function CleanWorkingFolder(c: Client, s: Server): (r: Result<Server, RestError>)
    ensures r.Ok? <==> Authorized(c, s) && IsFolder(s.store, c.workingFolder.pathLower)
    ensures r.Ok? ==> IsFolder(r.value.store, c.workingFolder.pathLower)
    ensures r.Ok? ==> Listing(r.value.store, c.workingFolder.pathLower) == map[]
    ensures r.Ok? ==> forall k :: k in s.store && !Under(k, c.workingFolder.pathLower) ==>
      k in r.value.store && r.value.store[k] == s.store[k]
    ensures r.Ok? ==> r.value.store.Keys <= s.store.Keys && r.value.validTokens == s.validTokens
  {
    var w := c.workingFolder.pathLower;
    if !Authorized(c, s) then Err(InvalidAccessToken)
    else if !IsFolder(s.store, w) then Err(NotFound(w))
    else
      var store' := map k | k in s.store && !Under(k, w) :: s.store[k];
      assert forall k :: IsChild(k, w) ==> Under(k, w) by {
        forall k ensures IsChild(k, w) ==> Under(k, w) { ChildUnder(k, w); }
      }
      ChildUnder(w, w);
      Ok(s.(store := store'))
  }

  /** A file older than `days` days at time `now` (both in seconds). */
  predicate Expired(e: Entry, days: int, now: int) {
    e.FileEntry? && now - e.modified > days * SecondsPerDay
  }

  /** `pruneFolder`: deletes the direct file entries of the folder older
      than `days` days; a non-positive `days` deletes nothing. */
  function PruneFolder(c: Client, s: Server, path: string, days: int, now: int): (r: Result<Server, RestError>)
    ensures r.Ok? <==> Authorized(c, s) && IsFolder(s.store, Lower(path))
    ensures r.Ok? ==> r.value.store.Keys <= s.store.Keys && r.value.validTokens == s.validTokens
    ensures r.Ok? ==> forall k :: k in r.value.store ==> r.value.store[k] == s.store[k]
    ensures r.Ok? ==> forall k :: k in s.store ==>
      (k !in r.value.store <==> days > 0 && IsChild(k, Lower(path)) && Expired(s.store[k], days, now))
    ensures r.Ok? && days <= 0 ==> r.value == s
  {
    var key := Lower(path);
    if !Authorized(c, s) then Err(InvalidAccessToken)
    else if !IsFolder(s.store, key) then Err(NotFound(key))
    else if days <= 0 then Ok(s)
    else Ok(s.(store := map k | k in s.store && !(IsChild(k, key) && Expired(s.store[k], days, now)) :: s.store[k]))
  }

  /** `storeFile`: uploads `content` to `name` (resolved against the
      working folder) in chunks of `chunkSize` bytes, and records the file
      with the size the upload session committed, stamped `now`. An
      existing file is replaced; a folder in the way is a conflict. */
  method StoreFile(c: Client, s: Server, name: string, content: seq<byte>, sessionId: string, now: int)
    returns (r: Result<(Server, Metadata), RestError>, requests: seq<ChunkedUpload.Request>)
    requires c.chunkSize > 0
    ensures var path := Resolve(c.workingFolder.pathLower, name);
      r.Ok? <==> Authorized(c, s) && Leaf(path) != "" && !(KeyOf(c, name) in s.store && s.store[KeyOf(c, name)].FolderEntry?)
    ensures r.Ok? ==> var (s', m) := r.value;
      && m == FileMetadata(Leaf(Resolve(c.workingFolder.pathLower, name)), KeyOf(c, name), |content|, now)
      && s'.store == s.store[m.pathLower := FileEntry(m.name, |content|, now)]
      && s'.validTokens == s.validTokens
    ensures r.Ok? ==> ChunkedUpload.Replay(ChunkedUpload.Idle, requests, sessionId) == ChunkedUpload.Closed(content)
    ensures r.Ok? ==> |requests| == ChunkedUpload.ChunkCount(|content|, c.chunkSize)
    ensures r.Err? ==> requests == []
  {
    var path := Resolve(c.workingFolder.pathLower, name);
    var key := Lower(path);
    requests := [];
    if !Authorized(c, s) {
      r := Err(InvalidAccessToken);
    } else if Leaf(path) == "" {
      r := Err(MalformedPath(path));
    } else if key in s.store && s.store[key].FolderEntry? {
      r := Err(Conflict(key));
    } else {
      var state;
      requests, state := ChunkedUpload.SendPayload(content, c.chunkSize, sessionId);
      var m := FileMetadata(Leaf(path), key, state.size, now);
      r := Ok((s.(store := s.store[key := FileEntry(m.name, state.size, now)]), m));
    }
  }

  // ---------------------------------------------------------------------
  // Properties across operations.

  /** Every operation keeps the client invariant. */
  lemma ValidPreserved(c: Client, s: Server, path: string, ms: int)
    requires Valid(c)
    ensures Valid(SetTimeout(c, ms))
    ensures Connect(c, s).Ok? ==> Valid(Connect(c, s).value)
    ensures Valid(Disconnect(c))
    ensures ChangeWorkingDirectory(c, s, path).Ok? ==> Valid(ChangeWorkingDirectory(c, s, path).value.0)
  {
  }

  /** A fresh client is disconnected; `connect` with an accepted token
      connects it and `disconnect` disconnects it again; with a rejected
      token `connect` fails. */
  lemma ConnectionLifecycle(token: string, s: Server)
    ensures !NewClient(token).connected
    ensures token in s.validTokens ==>
      Connect(NewClient(token), s).Ok? && Connect(NewClient(token), s).value.connected
      && !Disconnect(Connect(NewClient(token), s).value).connected
    ensures token !in s.validTokens ==> Connect(NewClient(token), s) == Err(InvalidAccessToken)
  {
  }

  /** The two timeouts of `DropboxV2Test`'s timeout tests. */
  lemma TimeoutExamples(token: string)
    ensures SetTimeout(NewClient(token), 213).timeout == -1
    ensures SetTimeout(NewClient(token), 60001).timeout == 60001
  {
  }

  /** Making a directory a second time succeeds with the same folder and
      changes nothing. */
  lemma MakeDirectoryIdempotent(c: Client, s: Server, name: string)
    requires MakeDirectory(c, s, name).Ok?
    ensures var (s', m) := MakeDirectory(c, s, name).value;
      MakeDirectory(c, s', name) == Ok((s', m))
  {
  }

  /** Where nothing is stored yet, `makeDirectory` adds exactly one
      folder, named by the last component of the resolved path, and
      returns it. */
  lemma MakeDirectoryNew(c: Client, s: Server, name: string)
    requires Authorized(c, s) && Leaf(Resolve(c.workingFolder.pathLower, name)) != ""
    requires KeyOf(c, name) !in s.store
    ensures var leaf := Leaf(Resolve(c.workingFolder.pathLower, name));
      MakeDirectory(c, s, name)
        == Ok((s.(store := s.store[KeyOf(c, name) := FolderEntry(leaf)]), FolderMetadata(leaf, KeyOf(c, name))))
  {
  }

  /** Changing into an existing folder makes its metadata the working
      folder and changes nothing else. */
  lemma ChangeIntoFolder(c: Client, s: Server, path: string)
    requires Authorized(c, s)
    requires KeyOf(c, path) != "" && KeyOf(c, path) in s.store && s.store[KeyOf(c, path)].FolderEntry?
    ensures ChangeWorkingDirectory(c, s, path)
      == Ok((c.(workingFolder := MetadataOf(KeyOf(c, path), s.store[KeyOf(c, path)])), true))
  {
  }

  /** A bare name in the working folder: the stored file is a direct entry
      of that folder, named by the name, keyed by the folder's path and
      the lower-cased name, and retrieving that path returns it with the
      payload's size. */
  lemma StoredFileInWorkingFolder(c: Client, s: Server, name: string, s': Server, m: Metadata, content: seq<byte>, now: int)
    requires Valid(c)
    requires Slash !in name && name != ""
    requires Authorized(c, s)
    requires m == FileMetadata(Leaf(Resolve(c.workingFolder.pathLower, name)), KeyOf(c, name), |content|, now)
    requires s'.validTokens == s.validTokens && s'.store == s.store[m.pathLower := FileEntry(m.name, |content|, now)]
    ensures m.name == name
    ensures m.pathLower == c.workingFolder.pathLower + [Slash] + Lower(name)
    ensures IsChild(m.pathLower, c.workingFolder.pathLower)
    ensures RetrieveMetaData(c, s', c.workingFolder.pathLower + [Slash] + name) == Ok(m)
  {
    ResolveBareName(c.workingFolder.pathLower, name);
  }

  /** Storing into an empty working folder leaves exactly that file in
      its listing. */
  lemma StoreIntoEmptyFolder(c: Client, s: Server, name: string, s': Server, m: Metadata, content: seq<byte>, now: int)
    requires Valid(c)
    requires Slash !in name && name != ""
    requires Listing(s.store, c.workingFolder.pathLower) == map[]
    requires m == FileMetadata(Leaf(Resolve(c.workingFolder.pathLower, name)), KeyOf(c, name), |content|, now)
    requires s'.store == s.store[m.pathLower := FileEntry(m.name, |content|, now)]
    ensures Listing(s'.store, c.workingFolder.pathLower).Keys == {m.pathLower}
  {
    var w := c.workingFolder.pathLower;
    ResolveBareName(w, name);
    forall k | k in s'.store && IsChild(k, w) ensures k == m.pathLower {
      assert k !in Listing(s.store, w);
    }
  }

  /** After `delete`, the target can no longer be retrieved and no
      folder lists it; any path outside the deleted subtree retrieves
      as it did before. */
  lemma DeleteThenRetrieve(c: Client, s: Server, target: Metadata, path: string)
    requires Delete(c, s, target).Ok?
    requires Lower(target.pathLower) == target.pathLower
    ensures var s' := Delete(c, s, target).value;
      && RetrieveMetaData(c, s', target.pathLower) == Err(NotFound(target.pathLower))
      && (forall folder :: target.pathLower !in Listing(s'.store, folder))
      && (Lower(path) != target.pathLower && !Under(Lower(path), target.pathLower) ==>
            RetrieveMetaData(c, s', path) == RetrieveMetaData(c, s, path))
  {
  }

  /** Pruning a folder none of whose files is old enough changes
      nothing; in particular a file stored at `now` survives pruning at
      `now` for any non-negative number of days. */
  lemma PruneKeepsRecent(c: Client, s: Server, path: string, days: int, now: int)
    requires Authorized(c, s) && IsFolder(s.store, Lower(path))
    requires forall k :: k in s.store && IsChild(k, Lower(path)) ==> !Expired(s.store[k], days, now)
    ensures PruneFolder(c, s, path, days, now) == Ok(s)
  {
    var r := PruneFolder(c, s, path, days, now).value;
    assert r.store == s.store;
  }

  /** A file stamped `now` is not expired at `now`. */
  lemma FreshNotExpired(size: nat, name: string, days: int, now: int)
    requires days >= 0
    ensures !Expired(FileEntry(name, size, now), days, now)
  {
  }

  /** A file older than the given number of days (at least one) is
      removed by pruning its folder. */
  lemma PruneRemovesOldFile(c: Client, s: Server, folder: string, key: string, days: int, now: int)
    requires Authorized(c, s) && IsFolder(s.store, Lower(folder))
    requires key in s.store && IsChild(key, Lower(folder)) && s.store[key].FileEntry?
    requires days > 0 && now - s.store[key].modified > days * SecondsPerDay
    ensures PruneFolder(c, s, folder, days, now).Ok?
    ensures key !in PruneFolder(c, s, folder, days, now).value.store
  {
  }
}

=== FILE: form_body.dfy ===
/** The `application/x-www-form-urlencoded` body builder (HTML 4.01,
    section 17.13.4.1): key/value pairs collected in order and rendered as
    `enc(key)=enc(value)` joined by `&`.

    The URL encoder is a library call; it is passed in as the function
    `enc`, and only the assumption `NoDelimiters(enc)` (the encoder never
    emits `&` or `=`) is made about it. */
module FormBody {

  const And: char := '&'
  const EqualsSign: char := '='

  /** The builder's state: keys and values interleaved in one list, as the
      source keeps them. */
  datatype FormBuilder = FormBuilder(parameters: seq<string>)

  /** The class invariant: the list holds whole pairs. */
  predicate Valid(b: FormBuilder) {
    |b.parameters| % 2 == 0
  }

  /** The pairs a parameter list holds, in insertion order. */
  function PairsOf(ps: seq<string>): (r: seq<(string, string)>)
    requires |ps| % 2 == 0
    ensures 2 * |r| == |ps|
    ensures forall i :: 0 <= i < |r| ==> r[i] == (ps[2 * i], ps[2 * i + 1])
    decreases |ps|
  {
    if ps == [] then [] else [(ps[0], ps[1])] + PairsOf(ps[2..])
  }

  function Pairs(b: FormBuilder): seq<(string, string)>
    requires Valid(b)
  {
    PairsOf(b.parameters)
  }

  /** A fresh builder: no parameters. */
  function NewBuilder(): (b: FormBuilder)
    ensures Valid(b) && Pairs(b) == []
  {
    FormBuilder([])
  }

  /** `appendQueryParameter`: adds the key, then the value. Earlier entries
      are untouched, the invariant is kept, and the pair view grows by
      exactly this pair at the end. */
  function AppendQueryParameter(b: FormBuilder, key: string, value: string): (r: FormBuilder)
    ensures |r.parameters| == |b.parameters| + 2
    ensures r.parameters[..|b.parameters|] == b.parameters
    ensures r.parameters[|b.parameters|] == key && r.parameters[|b.parameters| + 1] == value
    ensures Valid(b) ==> Valid(r) && Pairs(r) == Pairs(b) + [(key, value)]
  {
    var r := FormBuilder(b.parameters + [key, value]);
    assert Valid(b) ==> Pairs(r) == Pairs(b) + [(key, value)] by {
      if Valid(b) {
        var p, q := Pairs(r), Pairs(b) + [(key, value)];
        assert |p| == |q|;
        forall i | 0 <= i < |p| ensures p[i] == q[i] {
          if i < |Pairs(b)| {
            assert r.parameters[2 * i] == b.parameters[2 * i];
            assert r.parameters[2 * i + 1] == b.parameters[2 * i + 1];
          }
        }
      }
    }
    r
  }

  // ---------------------------------------------------------------------
  // Reference rendering: join and split on a separator character.

  /** The parts with `sep` placed between neighbours only. */
  function Join(parts: seq<string>, sep: char): string
    decreases |parts|
  {
    if |parts| == 0 then ""
    else if |parts| == 1 then parts[0]
    else parts[0] + [sep] + Join(parts[1..], sep)
  }

  /** Splits `s` at every occurrence of `sep`, keeping empty fields
      (so `Split("", sep) == [""]`). */
  function Split(s: string, sep: char): (r: seq<string>)
    ensures |r| >= 1
    decreases |s|
  {
    if s == [] then [""]
    else if s[0] == sep then [""] + Split(s[1..], sep)
    else
      var rest := Split(s[1..], sep);
      [[s[0]] + rest[0]] + rest[1..]
  }

  /** Number of occurrences of `c` in `s`. */
  function Count(c: char, s: string): nat
    decreases |s|
  {
    if s == [] then 0 else (if s[0] == c then 1 else 0) + Count(c, s[1..])
  }

  /** The encoder never produces either delimiter. */
  ghost predicate NoDelimiters(enc: string -> string) {
    forall s :: And !in enc(s) && EqualsSign !in enc(s)
  }

  function RenderPair(enc: string -> string, p: (string, string)): string {
    enc(p.0) + [EqualsSign] + enc(p.1)
  }

  function Rendered(pairs: seq<(string, string)>, enc: string -> string): (r: seq<string>)
    ensures |r| == |pairs|
    ensures forall i :: 0 <= i < |r| ==> r[i] == RenderPair(enc, pairs[i])
  {
    seq(|pairs|, i requires 0 <= i < |pairs| => RenderPair(enc, pairs[i]))
  }

  /** The body the form should produce: the rendered pairs joined by `&`. */
  function Render(pairs: seq<(string, string)>, enc: string -> string): string {
    Join(Rendered(pairs, enc), And)
  }

  /** Reading a body back: split on `&`, then each field on `=`. */
  function Parse(body: string): seq<seq<string>> {
    if body == [] then []
    else
      var fields := Split(body, And);
      seq(|fields|, i requires 0 <= i < |fields| => Split(fields[i], EqualsSign))
  }

  // ---------------------------------------------------------------------
  // `FormBuilder.build` and its private `append`.

  /** The private `append`: a separator only when the body so far is
      non-empty, then the encoded key, `=`, the encoded value. */
  function AppendPair(query: string, key: string, value: string, enc: string -> string): (r: string)
    ensures |query| == 0 ==> r == RenderPair(enc, (key, value))
    ensures |query| > 0 ==> r == query + [And] + RenderPair(enc, (key, value))
  {
    (if |query| > 0 then query + [And] else query) + enc(key) + [EqualsSign] + enc(value)
  }

  /** `build`: walks the list two entries at a time. The result is the
      reference rendering of the pairs, in insertion order; the builder is
      a value, so building twice gives the same string. */
  method Build(b: FormBuilder, enc: string -> string) returns (query: string)
    requires Valid(b)
    ensures query == Render(Pairs(b), enc)
    ensures Pairs(b) == [] <==> query == ""
  {
    var pairs := Pairs(b);
    query := "";
    var i := 0;
    while i < |b.parameters|
      invariant 0 <= i <= |b.parameters| && i % 2 == 0
      invariant query == Render(pairs[..i / 2], enc)
    {
      assert pairs[..i / 2 + 1] == pairs[..i / 2] + [(b.parameters[i], b.parameters[i + 1])];
      AppendPairRenders(pairs[..i / 2], b.parameters[i], b.parameters[i + 1], enc);
      query := AppendPair(query, b.parameters[i], b.parameters[i + 1], enc);
      i := i + 2;
    }
    assert pairs[..i / 2] == pairs;
  }

  // ---------------------------------------------------------------------
  // Lemmas.

  /** Rendering one more pair: the first pair alone, every later one
      behind a separator; a rendering of at least one pair is non-empty. */
  lemma RenderStep(pairs: seq<(string, string)>, k: nat, enc: string -> string)
    requires k < |pairs|
    ensures k == 0 ==> Render(pairs[..k + 1], enc) == RenderPair(enc, pairs[k])
    ensures k > 0 ==> Render(pairs[..k + 1], enc) == Render(pairs[..k], enc) + [And] + RenderPair(enc, pairs[k])
    ensures |Render(pairs[..k + 1], enc)| > 0
  {
    var done := Rendered(pairs[..k], enc);
    var next := RenderPair(enc, pairs[k]);
    assert Rendered(pairs[..k + 1], enc) == done + [next];
    if k > 0 {
      JoinSnoc(done, next, And);
    } else {
      assert done + [next] == [next];
    }
  }

  /** `append` on the rendering of any pairs renders them with one more
      pair: the step `build` repeats for each pair. */
  lemma AppendPairRenders(pairs: seq<(string, string)>, key: string, value: string, enc: string -> string)
    ensures AppendPair(Render(pairs, enc), key, value, enc) == Render(pairs + [(key, value)], enc)
  {
    var all := pairs + [(key, value)];
    RenderStep(all, |pairs|, enc);
    assert all[..|pairs| + 1] == all;
    assert all[..|pairs|] == pairs;
  }

  lemma {:induction false} JoinSnoc(parts: seq<string>, last: string, sep: char)
    requires |parts| >= 1
    ensures Join(parts + [last], sep) == Join(parts, sep) + [sep] + last
    decreases |parts|
  {
    if |parts| == 1 {
      assert (parts + [last])[1..] == [last];
    } else {
      assert (parts + [last])[1..] == parts[1..] + [last];
      JoinSnoc(parts[1..], last, sep);
    }
  }

  lemma {:induction false} JoinNonEmpty(parts: seq<string>, sep: char)
    requires |parts| >= 1 && |parts[0]| >= 1
    ensures |Join(parts, sep)| >= 1
  {
  }

  lemma {:induction false} SplitWithout(a: string, sep: char)
    requires sep !in a
    ensures Split(a, sep) == [a]
    decreases |a|
  {
    if a != [] {
      SplitWithout(a[1..], sep);
      assert [a[0]] + a[1..] == a;
    }
  }

  lemma {:induction false} SplitAt(a: string, b: string, sep: char)
    requires sep !in a
    ensures Split(a + [sep] + b, sep) == [a] + Split(b, sep)
    decreases |a|
  {
    var s := a + [sep] + b;
    if a == [] {
      assert s[1..] == b;
    } else {
      assert s[1..] == a[1..] + [sep] + b;
      SplitAt(a[1..], b, sep);
      assert [a[0]] + a[1..] == a;
    }
  }

  /** Splitting a join on its separator gives the parts back, provided no
      part contains the separator. */
  lemma {:induction false} SplitJoin(parts: seq<string>, sep: char)
    requires |parts| >= 1
    requires forall i :: 0 <= i < |parts| ==> sep !in parts[i]
    ensures Split(Join(parts, sep), sep) == parts
    decreases |parts|
  {
    if |parts| == 1 {
      SplitWithout(parts[0], sep);
    } else {
      SplitJoin(parts[1..], sep);
      SplitAt(parts[0], Join(parts[1..], sep), sep);
      assert [parts[0]] + parts[1..] == parts;
    }
  }

  lemma {:induction false} CountConcat(c: char, a: string, b: string)
    ensures Count(c, a + b) == Count(c, a) + Count(c, b)
    decreases |a|
  {
    if a == [] {
      assert a + b == b;
    } else {
      assert (a + b)[0] == a[0];
      assert (a + b)[1..] == a[1..] + b;
      CountConcat(c, a[1..], b);
    }
  }

  lemma {:induction false} CountAbsent(c: char, a: string)
    requires c !in a
    ensures Count(c, a) == 0
    decreases |a|
  {
    if a != [] {
      CountAbsent(c, a[1..]);
    }
  }

  /** A join of separator-free parts holds exactly one separator fewer
      than it has parts. */
  lemma {:induction false} CountJoin(parts: seq<string>, sep: char)
    requires |parts| >= 1
    requires forall i :: 0 <= i < |parts| ==> sep !in parts[i]
    ensures Count(sep, Join(parts, sep)) == |parts| - 1
    decreases |parts|
  {
    CountAbsent(sep, parts[0]);
    if |parts| > 1 {
      CountJoin(parts[1..], sep);
      CountConcat(sep, parts[0], [sep]);
      CountConcat(sep, parts[0] + [sep], Join(parts[1..], sep));
    }
  }

  lemma RenderedFree(pairs: seq<(string, string)>, enc: string -> string)
    requires NoDelimiters(enc)
    ensures forall i :: 0 <= i < |pairs| ==> And !in Rendered(pairs, enc)[i]
  {
    forall i | 0 <= i < |pairs| ensures And !in Rendered(pairs, enc)[i] {
      var p := pairs[i];
      assert And !in enc(p.0) && And !in enc(p.1);
    }
  }

  /** A body of k >= 1 pairs has exactly k - 1 separators, and none of them
      leads or trails. */
  lemma SeparatorCount(pairs: seq<(string, string)>, enc: string -> string)
    requires NoDelimiters(enc)
    requires |pairs| >= 1
    ensures Count(And, Render(pairs, enc)) == |pairs| - 1
    ensures |Render(pairs, enc)| >= 1
    ensures Render(pairs, enc)[0] != And
    ensures Render(pairs, enc)[|Render(pairs, enc)| - 1] != And
  {
    var parts := Rendered(pairs, enc);
    RenderedFree(pairs, enc);
    CountJoin(parts, And);
    var body := Render(pairs, enc);
    SplitJoin(parts, And);
    JoinNonEmpty(parts, And);
    FirstLastField(body, And);
    assert Split(body, And)[0] == parts[0];
    assert Split(body, And)[|parts| - 1] == parts[|parts| - 1];
  }

  /** A string whose first (last) split field is non-empty does not start
      (end) with the separator; a string with one field is that field. */
  lemma {:induction false} FirstLastField(s: string, sep: char)
    ensures |Split(s, sep)| == 1 ==> Split(s, sep)[0] == s
    ensures |s| >= 1 && |Split(s, sep)[0]| >= 1 ==> s[0] != sep
    ensures |s| >= 1 && |Split(s, sep)[|Split(s, sep)| - 1]| >= 1 ==> s[|s| - 1] != sep
    decreases |s|
  {
    if |s| >= 1 {
      FirstLastField(s[1..], sep);
      assert [s[0]] + s[1..] == s;
      if |s| > 1 {
        assert s[1..][|s[1..]| - 1] == s[|s| - 1];
      }
    }
  }

  /** Parsing a built body recovers exactly the encoded pairs, in order. */
  lemma ParseRender(pairs: seq<(string, string)>, enc: string -> string)
    requires NoDelimiters(enc)
    ensures |Parse(Render(pairs, enc))| == |pairs|
    ensures forall i :: 0 <= i < |pairs| ==>
      Parse(Render(pairs, enc))[i] == [enc(pairs[i].0), enc(pairs[i].1)]
  {
    if pairs != [] {
      var parts := Rendered(pairs, enc);
      RenderedFree(pairs, enc);
      SplitJoin(parts, And);
      JoinNonEmpty(parts, And);
      forall i | 0 <= i < |pairs|
        ensures Split(parts[i], EqualsSign) == [enc(pairs[i].0), enc(pairs[i].1)]
      {
        var p := pairs[i];
        assert EqualsSign !in enc(p.0) && EqualsSign !in enc(p.1);
        SplitAt(enc(p.0), enc(p.1), EqualsSign);
        SplitWithout(enc(p.1), EqualsSign);
      }
    }
  }

  /** End to end: the body built from a builder parses back to the encoded
      pairs in the order they were appended. */
  method BuildParsesBack(b: FormBuilder, enc: string -> string) returns (query: string)
    requires Valid(b)
    requires NoDelimiters(enc)
    ensures |Parse(query)| == |Pairs(b)|
    ensures forall i :: 0 <= i < |Pairs(b)| ==>
      Parse(query)[i] == [enc(b.parameters[2 * i]), enc(b.parameters[2 * i + 1])]
  {
    query := Build(b, enc);
    ParseRender(Pairs(b), enc);
  }
}

=== FILE: header_encoding.dfy ===
/** `JsonObjectRequest.httpHeaderEncode`: makes a string safe for an HTTP
    header value. Java strings are sequences of UTF-16 code units; every
    unit in the ASCII range is kept, every other unit becomes the six
    characters `\uXXXX` (the escape form of section 7 of RFC 8259).

    A Dafny `string` holds Unicode scalar values, so the model first lays
    the string out as UTF-16 units, exactly as Java stores it. */
module HeaderEncoding {
  import opened Wrappers

  /** One UTF-16 code unit: Java's `char`. */
  newtype Unit = x: int | 0 <= x < 0x1_0000

  const Backslash: char := '\\'

  predicate IsAsciiUnit(u: Unit) {
    u < 0x80
  }

  predicate IsAsciiChar(c: char) {
    (c as int) < 0x80
  }

  predicate IsAscii(s: string) {
    forall i :: 0 <= i < |s| ==> IsAsciiChar(s[i])
  }

  /** The UTF-16 layout of one scalar value: itself when it fits in 16
      bits, otherwise a high and a low surrogate. */
  function Utf16(c: char): (r: seq<Unit>)
    ensures 1 <= |r| <= 2
    ensures (c as int) < 0x1_0000 <==> |r| == 1
    ensures |r| == 1 ==> r[0] as int == c as int
    ensures |r| == 2 ==> 0xD800 <= r[0] < 0xDC00 <= r[1] < 0xE000
    ensures |r| == 2 ==> 0x1_0000 + (r[0] as int - 0xD800) * 0x400 + (r[1] as int - 0xDC00) == c as int
  {
    var v := c as int;
    if v < 0x1_0000 then [v as Unit]
    else
      var w := v - 0x1_0000;
      [(0xD800 + w / 0x400) as Unit, (0xDC00 + w % 0x400) as Unit]
  }

  /** The Java representation of a string. */
  function ToUtf16(s: string): seq<Unit>
    decreases |s|
  {
    if s == [] then [] else Utf16(s[0]) + ToUtf16(s[1..])
  }

  function HexDigit(d: int): (c: char)
    requires 0 <= d < 16
    ensures IsAsciiChar(c) && c != Backslash
  {
    if d < 10 then ('0' as int + d) as char else ('a' as int + d - 10) as char
  }

  predicate IsHexChar(c: char) {
    ('0' <= c <= '9') || ('a' <= c <= 'f') || ('A' <= c <= 'F')
  }

  /** The value of a hexadecimal digit, in either letter case. */
  function HexValue(c: char): (d: int)
    requires IsHexChar(c)
    ensures 0 <= d < 16
  {
    if '0' <= c <= '9' then c as int - '0' as int
    else if 'a' <= c <= 'f' then c as int - 'a' as int + 10
    else c as int - 'A' as int + 10
  }

  /** Four hexadecimal digits, most significant first, zero-padded. */
  function Hex4(u: Unit): (r: string)
    ensures |r| == 4
    ensures forall i :: 0 <= i < 4 ==> IsHexChar(r[i]) && IsAsciiChar(r[i])
    ensures 4096 * HexValue(r[0]) + 256 * HexValue(r[1]) + 16 * HexValue(r[2]) + HexValue(r[3]) == u as int
  {
    var v := u as int;
    var r3 := v % 4096;
    var r2 := r3 % 256;
    HexRoundTrip(v / 4096);
    HexRoundTrip(r3 / 256);
    HexRoundTrip(r2 / 16);
    HexRoundTrip(r2 % 16);
    [HexDigit(v / 4096), HexDigit(r3 / 256), HexDigit(r2 / 16), HexDigit(r2 % 16)]
  }

  lemma HexRoundTrip(d: int)
    requires 0 <= d < 16
    ensures IsHexChar(HexDigit(d)) && HexValue(HexDigit(d)) == d
  {
  }

  /** The rendering of one unit. */
  function EscapeUnit(u: Unit): (r: string)
    ensures IsAsciiUnit(u) ==> r == [u as int as char]
    ensures !IsAsciiUnit(u) ==> |r| == 6 && r[0] == Backslash && r[1] == 'u'
    ensures IsAscii(r)
  {
    if IsAsciiUnit(u) then [u as int as char] else [Backslash, 'u'] + Hex4(u)
  }

  function EncodeUnits(us: seq<Unit>): string
    decreases |us|
  {
    if us == [] then "" else EscapeUnit(us[0]) + EncodeUnits(us[1..])
  }

  /** `httpHeaderEncode`. */
  function HttpHeaderEncode(s: string): string {
    EncodeUnits(ToUtf16(s))
  }

  /** Number of units outside ASCII. */
  function NonAsciiUnits(us: seq<Unit>): nat
    decreases |us|
  {
    if us == [] then 0 else (if IsAsciiUnit(us[0]) then 0 else 1) + NonAsciiUnits(us[1..])
  }

  /** The receiving side: turns a header value back into UTF-16 units, or
      fails on a character that cannot occur in an encoded value. */
  function DecodeUnits(t: string): Option<seq<Unit>>
    decreases |t|
  {
    if t == [] then Some([])
    else if t[0] == Backslash then
      if |t| >= 6 && t[1] == 'u' && IsHexChar(t[2]) && IsHexChar(t[3]) && IsHexChar(t[4]) && IsHexChar(t[5]) then
        var u := 4096 * HexValue(t[2]) + 256 * HexValue(t[3]) + 16 * HexValue(t[4]) + HexValue(t[5]);
        match DecodeUnits(t[6..])
        case None => None
        case Some(rest) => Some([u as Unit] + rest)
      else None
    else if IsAsciiChar(t[0]) then
      match DecodeUnits(t[1..])
      case None => None
      case Some(rest) => Some([t[0] as int as Unit] + rest)
    else None
  }

  // ---------------------------------------------------------------------
  // Lemmas.

  lemma {:induction false} ToUtf16Concat(a: string, b: string)
    ensures ToUtf16(a + b) == ToUtf16(a) + ToUtf16(b)
    decreases |a|
  {
    if a == [] {
      assert a + b == b;
    } else {
      assert (a + b)[0] == a[0];
      assert (a + b)[1..] == a[1..] + b;
      ToUtf16Concat(a[1..], b);
    }
  }

  lemma {:induction false} EncodeUnitsConcat(a: seq<Unit>, b: seq<Unit>)
    ensures EncodeUnits(a + b) == EncodeUnits(a) + EncodeUnits(b)
    decreases |a|
  {
    if a == [] {
      assert a + b == b;
    } else {
      assert (a + b)[0] == a[0];
      assert (a + b)[1..] == a[1..] + b;
      EncodeUnitsConcat(a[1..], b);
    }
  }

  /** The escaper works character by character: encoding a concatenation
      is concatenating the encodings, so ASCII runs around an escaped
      character stay verbatim and in place. */
  lemma HttpHeaderEncodeConcat(a: string, b: string)
    ensures HttpHeaderEncode(a + b) == HttpHeaderEncode(a) + HttpHeaderEncode(b)
  {
    ToUtf16Concat(a, b);
    EncodeUnitsConcat(ToUtf16(a), ToUtf16(b));
  }

  /** An all-ASCII string encodes to itself. */
  lemma {:induction false} AsciiUnchanged(s: string)
    requires IsAscii(s)
    ensures HttpHeaderEncode(s) == s
    decreases |s|
  {
    if s != [] {
      AsciiUnchanged(s[1..]);
      assert ToUtf16(s) == [s[0] as int as Unit] + ToUtf16(s[1..]);
      assert EncodeUnits(ToUtf16(s)) == [s[0]] + EncodeUnits(ToUtf16(s[1..]));
      assert [s[0]] + s[1..] == s;
    }
  }

  lemma {:induction false} EncodeUnitsAscii(us: seq<Unit>)
    ensures IsAscii(EncodeUnits(us))
    ensures |EncodeUnits(us)| == |us| + 5 * NonAsciiUnits(us)
    decreases |us|
  {
    if us != [] {
      EncodeUnitsAscii(us[1..]);
    }
  }

  /** The output is ASCII only, and each non-ASCII unit costs five extra
      characters. */
  lemma HttpHeaderEncodeShape(s: string)
    ensures IsAscii(HttpHeaderEncode(s))
    ensures |HttpHeaderEncode(s)| == |ToUtf16(s)| + 5 * NonAsciiUnits(ToUtf16(s))
  {
    EncodeUnitsAscii(ToUtf16(s));
  }

  /** For a string of 16-bit characters the layout is the string itself,
      so the length is the input length plus five per non-ASCII character. */
  lemma {:induction false} Utf16Bmp(s: string)
    requires forall i :: 0 <= i < |s| ==> (s[i] as int) < 0x1_0000
    ensures |ToUtf16(s)| == |s|
    ensures forall i :: 0 <= i < |s| ==> ToUtf16(s)[i] as int == s[i] as int
    decreases |s|
  {
    if s != [] {
      Utf16Bmp(s[1..]);
    }
  }

  /** The two cases `JsonObjectRequestTest` pins down. */
  lemma SimpleEncode()
    ensures HttpHeaderEncode("simple") == "simple"
  {
    AsciiUnchanged("simple");
  }

  lemma SpecialCharEncode()
    ensures HttpHeaderEncode("simple\U{2014}text") == "simple\\u2014text"
  {
    DashEncode();
    AsciiAroundEscape("simple", "\U{2014}", "text", "simple\U{2014}text", "\\u2014", "simple\\u2014text");
  }

  /** ASCII text on either side of any string `mid` is copied verbatim and
      in place around the encoding `midEnc` of `mid`. */
  lemma AsciiAroundEscape(pre: string, mid: string, post: string, s: string, midEnc: string, out: string)
    requires IsAscii(pre) && IsAscii(post)
    requires s == pre + mid + post && HttpHeaderEncode(mid) == midEnc
    requires out == pre + midEnc + post
    ensures HttpHeaderEncode(s) == out
  {
    AsciiUnchanged(pre);
    AsciiUnchanged(post);
    HttpHeaderEncodeConcat(pre + mid, post);
    HttpHeaderEncodeConcat(pre, mid);
  }

  lemma DashEncode()
    ensures HttpHeaderEncode("\U{2014}") == "\\u2014"
  {
    var dash := "\U{2014}";
    assert dash[1..] == [];
    assert ToUtf16(dash) == [0x2014 as Unit];
    assert EncodeUnits([0x2014 as Unit]) == EscapeUnit(0x2014 as Unit);
    assert Hex4(0x2014 as Unit) == "2014";
  }

  lemma {:induction false} DecodeEscape(u: Unit, rest: string)
    requires u as int != Backslash as int
    ensures DecodeUnits(EscapeUnit(u) + rest) ==
      match DecodeUnits(rest)
      case None => None
      case Some(r) => Some([u] + r)
  {
    var t := EscapeUnit(u) + rest;
    if IsAsciiUnit(u) {
      assert t[0] == u as int as char && t[1..] == rest;
    } else {
      assert t[..6] == EscapeUnit(u);
      assert t[6..] == rest;
    }
  }

  /** The receiving side recovers the UTF-16 units exactly, provided the
      input holds no backslash of its own. The proviso is needed: the
      escaper leaves a literal backslash alone, so the six ASCII characters backslash, `u`, `2014`
      and the character U+2014 encode alike (see `EscapeCollision`). */
  lemma {:induction false} DecodeEncodeUnits(us: seq<Unit>)
    requires forall i :: 0 <= i < |us| ==> us[i] as int != Backslash as int
    ensures DecodeUnits(EncodeUnits(us)) == Some(us)
    decreases |us|
  {
    if us != [] {
      DecodeEncodeUnits(us[1..]);
      DecodeEscape(us[0], EncodeUnits(us[1..]));
      assert [us[0]] + us[1..] == us;
    }
  }

  /** The backslash as a unit. */
  const BackslashUnit: Unit := 0x5C

  /** Each escape the decoder reads is six characters, exactly one of
      them a backslash, and yields one unit; every other character
      yields one unit. */
  lemma {:induction false} DecodeLength(t: string)
    requires DecodeUnits(t).Some?
    ensures |t| == |DecodeUnits(t).value| + 5 * multiset(t)[Backslash]
    decreases |t|
  {
    if t != [] {
      if t[0] == Backslash {
        DecodeLength(t[6..]);
        var e := t[..6];
        assert t == e + t[6..];
        assert e == [t[0], t[1], t[2], t[3], t[4], t[5]];
        assert multiset(e)[Backslash] == 1;
      } else {
        DecodeLength(t[1..]);
        assert t == [t[0]] + t[1..];
      }
    }
  }

  /** One unit's rendering holds a backslash exactly when the unit is
      escaped or is itself a backslash. */
  lemma EscapeBackslashes(u: Unit)
    ensures multiset(EscapeUnit(u))[Backslash] ==
      (if IsAsciiUnit(u) then 0 else 1) + (if u == BackslashUnit then 1 else 0)
  {
    if !IsAsciiUnit(u) {
      var h := Hex4(u);
      assert EscapeUnit(u) == [Backslash, 'u', h[0], h[1], h[2], h[3]];
    }
  }

  lemma EncodeBackslashesStep(us: seq<Unit>)
    requires us != []
    ensures multiset(EncodeUnits(us))[Backslash] ==
      multiset(EscapeUnit(us[0]))[Backslash] + multiset(EncodeUnits(us[1..]))[Backslash]
  {
    assert EncodeUnits(us) == EscapeUnit(us[0]) + EncodeUnits(us[1..]);
  }

  lemma UnitCountStep(us: seq<Unit>, x: Unit)
    requires us != []
    ensures multiset(us)[x] == (if us[0] == x then 1 else 0) + multiset(us[1..])[x]
  {
    assert us == [us[0]] + us[1..];
  }

  /** The encoding holds one backslash per non-ASCII unit (opening its
      escape) and one per backslash unit (kept as itself). */
  lemma {:induction false} EncodeBackslashes(us: seq<Unit>)
    ensures multiset(EncodeUnits(us))[Backslash] == NonAsciiUnits(us) + multiset(us)[BackslashUnit]
    decreases |us|
  {
    if us != [] {
      EncodeBackslashes(us[1..]);
      EscapeBackslashes(us[0]);
      EncodeBackslashesStep(us);
      UnitCountStep(us, BackslashUnit);
    }
  }

  /** A backslash in the input breaks the round trip: the decoder turns
      it into the start of an escape, and the decoded text comes out
      five units short per backslash. */
  lemma BackslashBreaksDecode(us: seq<Unit>)
    requires exists i :: 0 <= i < |us| && us[i] == BackslashUnit
    ensures DecodeUnits(EncodeUnits(us)) != Some(us)
  {
    var i :| 0 <= i < |us| && us[i] == BackslashUnit;
    assert us[i] in multiset(us);
    var t := EncodeUnits(us);
    if DecodeUnits(t) == Some(us) {
      DecodeLength(t);
      EncodeUnitsAscii(us);
      EncodeBackslashes(us);
      assert false;
    }
  }

  /** The receiving side recovers the units exactly when none of them
      is a backslash. */
  lemma DecodeEncodeUnitsExactly(us: seq<Unit>)
    ensures DecodeUnits(EncodeUnits(us)) == Some(us) <==> forall i :: 0 <= i < |us| ==> us[i] != BackslashUnit
  {
    if forall i :: 0 <= i < |us| ==> us[i] != BackslashUnit {
      DecodeEncodeUnits(us);
    } else {
      BackslashBreaksDecode(us);
    }
  }

  lemma HttpHeaderRoundTrip(s: string)
    requires Backslash !in s
    ensures DecodeUnits(HttpHeaderEncode(s)) == Some(ToUtf16(s))
  {
    NoBackslashUnits(s);
    DecodeEncodeUnits(ToUtf16(s));
  }

  lemma {:induction false} NoBackslashUnits(s: string)
    requires Backslash !in s
    ensures forall i :: 0 <= i < |ToUtf16(s)| ==> ToUtf16(s)[i] as int != Backslash as int
    decreases |s|
  {
    if s != [] {
      NoBackslashUnits(s[1..]);
    }
  }

  /** Two different inputs with the same header value. */
  lemma EscapeCollision()
    ensures "\\u2014" != "\U{2014}"
    ensures HttpHeaderEncode("\\u2014") == HttpHeaderEncode("\U{2014}")
  {
    AsciiUnchanged("\\u2014");
    DashEncode();
  }
}

=== FILE: paths.dfy ===
/** Paths in the remote store: absolute, `/`-separated, with the root
    written as the empty string (as the API reports it). Identity is by
    the lower-cased form, `pathLower`; the model folds only the ASCII
    letters A-Z. */
module Paths {

  const Slash: char := '/'

  function LowerChar(c: char): char {
    if 'A' <= c <= 'Z' then (c as int + 32) as char else c
  }

  function Lower(s: string): (r: string)
    ensures |r| == |s|
    ensures forall i :: 0 <= i < |s| ==> r[i] == LowerChar(s[i])
  {
    seq(|s|, i requires 0 <= i < |s| => LowerChar(s[i]))
  }

  /** A name without capitals folds to itself. */
  lemma LowerOfLower(s: string)
    requires forall i :: 0 <= i < |s| ==> !('A' <= s[i] <= 'Z')
    ensures Lower(s) == s
  {
  }

  /** Folding case is idempotent, works character by character, and
      keeps every separator where it was. */
  lemma LowerFacts(a: string, b: string)
    ensures Lower(Lower(a)) == Lower(a)
    ensures Lower(a + b) == Lower(a) + Lower(b)
    ensures forall i :: 0 <= i < |a| ==> (Lower(a)[i] == Slash <==> a[i] == Slash)
    ensures Lower(a) == [] <==> a == []
  {
    assert Lower(Lower(a)) == Lower(a);
    assert Lower(a + b) == Lower(a) + Lower(b);
  }

  /** The index of the last separator, or -1 when there is none. */
  function LastSlash(p: string): (i: int)
    ensures -1 <= i < |p|
    ensures i >= 0 ==> p[i] == Slash
    ensures forall j :: i < j < |p| ==> p[j] != Slash
    decreases |p|
  {
    if p == [] then -1
    else if p[|p| - 1] == Slash then |p| - 1
    else LastSlash(p[..|p| - 1])
  }

  /** The folder part of a path. */
  function Parent(p: string): string {
    if LastSlash(p) < 0 then "" else p[..LastSlash(p)]
  }

  /** The last component of a path: the entry's name. */
  function Leaf(p: string): string {
    p[LastSlash(p) + 1..]
  }

  /** `k` is a direct entry of folder `p`. */
  predicate IsChild(k: string, p: string) {
    LastSlash(k) >= 0 && Parent(k) == p
  }

  /** `k` lies somewhere inside folder `p`. */
  predicate Under(k: string, p: string) {
    |k| > |p| && k[..|p|] == p && k[|p|] == Slash
  }

  /** `a/b` with a separator-free `b` is the entry `b` of folder `a`. */
  lemma ParentLeaf(a: string, b: string)
    requires Slash !in b
    ensures LastSlash(a + [Slash] + b) == |a|
    ensures Parent(a + [Slash] + b) == a && Leaf(a + [Slash] + b) == b
    ensures IsChild(a + [Slash] + b, a)
  {
    var p := a + [Slash] + b;
    var i := LastSlash(p);
    assert p[|a|] == Slash;
    assert p[..|a|] == a;
    assert p[|a| + 1..] == b;
  }

  /** A direct entry lies inside its folder, and nothing lies inside
      itself. */
  lemma ChildUnder(k: string, p: string)
    ensures IsChild(k, p) ==> Under(k, p)
    ensures !Under(p, p)
  {
  }

  /** Resolves `path` against the working folder `working`: `/` is the
      root, another absolute path stands for itself, and a relative one
      is appended to the working folder. */
  function Resolve(working: string, path: string): (r: string)
    ensures path == [Slash] ==> r == ""
    ensures |path| > 1 && path[0] == Slash ==> r == path
    ensures (path == [] || path[0] != Slash) ==> r == working + [Slash] + path
  {
    if path == [Slash] then ""
    else if |path| > 0 && path[0] == Slash then path
    else working + [Slash] + path
  }

  /** A bare name resolves to an entry of the working folder with that
      name, and its lower-cased key is an entry of the (lower-cased)
      working folder. */
  lemma ResolveBareName(working: string, name: string)
    requires Slash !in name
    requires Lower(working) == working
    ensures Parent(Resolve(working, name)) == working
    ensures Leaf(Resolve(working, name)) == name
    ensures Lower(Resolve(working, name)) == working + [Slash] + Lower(name)
    ensures IsChild(Lower(Resolve(working, name)), working)
    ensures Leaf(Lower(Resolve(working, name))) == Lower(name)
  {
    var r := working + [Slash] + name;
    var lowered := working + [Slash] + Lower(name);
    assert Resolve(working, name) == r;
    ParentLeaf(working, name);
    assert Lower(r) == lowered by {
      forall i | 0 <= i < |r| ensures Lower(r)[i] == lowered[i] {
        if i < |working| {
          assert r[i] == working[i];
          assert Lower(working)[i] == LowerChar(working[i]);
        } else if i > |working| {
          assert r[i] == name[i - |working| - 1];
        }
      }
    }
    assert Slash !in Lower(name) by {
      forall i | 0 <= i < |name| ensures Lower(name)[i] != Slash {
        assert name[i] != Slash;
      }
    }
    ParentLeaf(working, Lower(name));
  }
}

=== FILE: publish_step.dfy ===
/** `DropboxPublishStep`: the pipeline step's configuration. Three
    strings are fixed by the constructor; the rest are set one at a time
    by setters, two of which repair their argument (`null` becomes the
    empty string, a non-positive day count becomes zero). `getTransfers`
    packages the fields into the single transfer the step performs. */
module PublishStep {
  import opened Wrappers

  /** A Java `String` reference: `None` is `null`. */
  type JString = Option<string>

  /** The transfer's constructor arguments, in their order. */
  datatype Transfer = Transfer(
    sourceFiles: JString,
    excludes: JString,
    remoteDirectory: JString,
    removePrefix: JString,
    remoteDirectorySDF: bool,
    flatten: bool,
    cleanRemote: bool,
    pruneRoot: bool,
    pruneDays: int)

  datatype Step = Step(
    sourceFiles: JString,
    remoteDirectory: JString,
    configName: JString,
    excludes: JString,
    removePrefix: JString,
    remoteDirectorySDF: bool,
    flatten: bool,
    cleanRemote: bool,
    pruneRoot: bool,
    pruneDays: int)

  /** What every reachable step satisfies. */
  predicate Valid(s: Step) {
    s.pruneDays >= 0
  }

  /** The constructor: the three arguments verbatim, every other field at
      its Java default. */
  function NewStep(sourceFiles: JString, remoteDirectory: JString, configName: JString): (s: Step)
    ensures s.sourceFiles == sourceFiles && s.remoteDirectory == remoteDirectory && s.configName == configName
    ensures s.excludes == None && s.removePrefix == None
    ensures !s.remoteDirectorySDF && !s.flatten && !s.cleanRemote && !s.pruneRoot && s.pruneDays == 0
    ensures Valid(s)
  {
    Step(sourceFiles, remoteDirectory, configName, None, None, false, false, false, false, 0)
  }

  /** `Util.fixNull`. */
  function FixNull(x: JString): (r: string)
    ensures x.Some? ==> r == x.value
    ensures x.None? ==> r == ""
  {
    match x
    case None => ""
    case Some(v) => v
  }

  function SetExcludes(s: Step, excludes: JString): (r: Step)
    ensures r.excludes.Some? && r.excludes.value == FixNull(excludes)
    ensures r.(excludes := s.excludes) == s
  {
    s.(excludes := Some(FixNull(excludes)))
  }

  function SetRemovePrefix(s: Step, removePrefix: JString): (r: Step)
    ensures r.removePrefix.Some? && r.removePrefix.value == FixNull(removePrefix)
    ensures r.(removePrefix := s.removePrefix) == s
  {
    s.(removePrefix := Some(FixNull(removePrefix)))
  }

  function SetRemoteDirectorySDF(s: Step, v: bool): (r: Step)
    ensures r.remoteDirectorySDF == v && r.(remoteDirectorySDF := s.remoteDirectorySDF) == s
  {
    s.(remoteDirectorySDF := v)
  }

  function SetFlatten(s: Step, v: bool): (r: Step)
    ensures r.flatten == v && r.(flatten := s.flatten) == s
  {
    s.(flatten := v)
  }

  function SetCleanRemote(s: Step, v: bool): (r: Step)
    ensures r.cleanRemote == v && r.(cleanRemote := s.cleanRemote) == s
  {
    s.(cleanRemote := v)
  }

  function SetPruneRoot(s: Step, v: bool): (r: Step)
    ensures r.pruneRoot == v && r.(pruneRoot := s.pruneRoot) == s
  {
    s.(pruneRoot := v)
  }

  /** `setPruneDays`: a positive count is kept, anything else is zero. */
  function SetPruneDays(s: Step, days: int): (r: Step)
    ensures r.pruneDays >= 0
    ensures days > 0 ==> r.pruneDays == days
    ensures days <= 0 ==> r.pruneDays == 0
    ensures r.(pruneDays := s.pruneDays) == s
  {
    s.(pruneDays := if days > 0 then days else 0)
  }

  /** `getTransfers`: exactly one transfer, carrying the step's fields. */
  function GetTransfers(s: Step): (ts: seq<Transfer>)
    ensures |ts| == 1
    ensures ts[0].sourceFiles == s.sourceFiles && ts[0].excludes == s.excludes
    ensures ts[0].remoteDirectory == s.remoteDirectory && ts[0].removePrefix == s.removePrefix
    ensures ts[0].remoteDirectorySDF == s.remoteDirectorySDF && ts[0].flatten == s.flatten
    ensures ts[0].cleanRemote == s.cleanRemote && ts[0].pruneRoot == s.pruneRoot
    ensures ts[0].pruneDays == s.pruneDays
  {
    [Transfer(s.sourceFiles, s.excludes, s.remoteDirectory, s.removePrefix,
              s.remoteDirectorySDF, s.flatten, s.cleanRemote, s.pruneRoot, s.pruneDays)]
  }

  /** Reads a step back from its transfer and configuration name. */
  function StepOf(configName: JString, t: Transfer): Step {
    Step(t.sourceFiles, t.remoteDirectory, configName, t.excludes, t.removePrefix,
         t.remoteDirectorySDF, t.flatten, t.cleanRemote, t.pruneRoot, t.pruneDays)
  }

  /** The transfer loses nothing: with the configuration name it gives
      the step back. */
  lemma TransferRoundTrip(s: Step)
    ensures StepOf(s.configName, GetTransfers(s)[0]) == s
  {
  }

  /** Every setter keeps the invariant, so no reachable step has a
      negative day count, and the transfer reports what was set. */
  lemma SettersKeepValid(s: Step, x: JString, b: bool, days: int)
    requires Valid(s)
    ensures Valid(SetExcludes(s, x)) && Valid(SetRemovePrefix(s, x))
    ensures Valid(SetRemoteDirectorySDF(s, b)) && Valid(SetFlatten(s, b))
    ensures Valid(SetCleanRemote(s, b)) && Valid(SetPruneRoot(s, b))
    ensures Valid(SetPruneDays(s, days))
    ensures GetTransfers(SetPruneDays(s, days))[0].pruneDays == (if days > 0 then days else 0)
    ensures GetTransfers(SetExcludes(s, x))[0].excludes == Some(FixNull(x))
  {
  }
}

=== FILE: timestamps.dfy ===
/** `parseDate`: the API's timestamps have the fixed form
    `YYYY-MM-DDTHH:MM:SSZ` (a UTC date-time of section 5.6 of RFC 3339).
    The model parses to calendar fields only; turning the fields into an
    instant in a time zone is not part of it. */
module Timestamps {
  import opened Wrappers

  datatype DateTime = DateTime(year: nat, month: nat, day: nat, hour: nat, minute: nat, second: nat)

  datatype FormatError = MalformedDate(input: string)

  const Length: nat := 20

  predicate IsDigit(c: char) {
    '0' <= c <= '9'
  }

  function DigitValue(c: char): (d: nat)
    requires IsDigit(c)
    ensures d < 10
  {
    c as int - '0' as int
  }

  function Digit(d: nat): (c: char)
    requires d < 10
    ensures IsDigit(c) && DigitValue(c) == d
  {
    ('0' as int + d) as char
  }

  /** The positions that hold digits, and the separators between them. */
  predicate DigitPosition(i: int) {
    0 <= i < Length && i != 4 && i != 7 && i != 10 && i != 13 && i != 16 && i != 19
  }

  predicate WellFormed(s: string) {
    && |s| == Length
    && s[4] == '-' && s[7] == '-' && s[10] == 'T'
    && s[13] == ':' && s[16] == ':' && s[19] == 'Z'
    && forall i :: 0 <= i < Length && DigitPosition(i) ==> IsDigit(s[i])
  }

  function Two(s: string, i: nat): nat
    requires i + 2 <= |s| && IsDigit(s[i]) && IsDigit(s[i + 1])
  {
    10 * DigitValue(s[i]) + DigitValue(s[i + 1])
  }

  function Four(s: string, i: nat): nat
    requires i + 4 <= |s| && IsDigit(s[i]) && IsDigit(s[i + 1]) && IsDigit(s[i + 2]) && IsDigit(s[i + 3])
  {
    100 * Two(s, i) + Two(s, i + 2)
  }

  /** Fields that fit the fixed-width form. */
  predicate Printable(d: DateTime) {
    d.year < 10000 && d.month < 100 && d.day < 100 && d.hour < 100 && d.minute < 100 && d.second < 100
  }

  /** `parseDate`: the fields of a well-formed timestamp, a format error
      for anything else. */
  function ParseDate(s: string): (r: Result<DateTime, FormatError>)
    ensures r.Ok? <==> WellFormed(s)
    ensures r.Err? ==> r.error == MalformedDate(s)
    ensures r.Ok? ==> Printable(r.value)
  {
    if WellFormed(s) then
      assert DigitPosition(0) && DigitPosition(1) && DigitPosition(2) && DigitPosition(3);
      assert DigitPosition(5) && DigitPosition(6) && DigitPosition(8) && DigitPosition(9);
      assert DigitPosition(11) && DigitPosition(12) && DigitPosition(14) && DigitPosition(15);
      assert DigitPosition(17) && DigitPosition(18);
      Ok(DateTime(Four(s, 0), Two(s, 5), Two(s, 8), Two(s, 11), Two(s, 14), Two(s, 17)))
    else
      Err(MalformedDate(s))
  }

  function TwoDigits(n: nat): (r: string)
    requires n < 100
    ensures |r| == 2 && IsDigit(r[0]) && IsDigit(r[1]) && Two(r, 0) == n
  {
    [Digit(n / 10), Digit(n % 10)]
  }

  function FourDigits(n: nat): (r: string)
    requires n < 10000
    ensures |r| == 4 && forall i :: 0 <= i < 4 ==> IsDigit(r[i])
    ensures Four(r, 0) == n
  {
    TwoDigits(n / 100) + TwoDigits(n % 100)
  }

  /** The inverse of `ParseDate`: the fixed-width form of the fields. */
  function FormatDate(d: DateTime): (s: string)
    requires Printable(d)
    ensures |s| == Length
  {
    FourDigits(d.year) + "-" + TwoDigits(d.month) + "-" + TwoDigits(d.day) + "T"
      + TwoDigits(d.hour) + ":" + TwoDigits(d.minute) + ":" + TwoDigits(d.second) + "Z"
  }

  /** `Calendar.HOUR`: the hour on a 12-hour clock. */
  function Hour12(d: DateTime): (h: nat)
    ensures h < 12
    ensures h == d.hour || h + 12 == d.hour || d.hour >= 24
  {
    d.hour % 12
  }

  /** Every printable date-time formats to a well-formed timestamp that
      parses back to it. */
  lemma ParseFormat(d: DateTime)
    requires Printable(d)
    ensures WellFormed(FormatDate(d))
    ensures ParseDate(FormatDate(d)) == Ok(d)
  {
    var s := FormatDate(d);
    var y, mo, da := FourDigits(d.year), TwoDigits(d.month), TwoDigits(d.day);
    var h, mi, se := TwoDigits(d.hour), TwoDigits(d.minute), TwoDigits(d.second);
    assert s == y + "-" + mo + "-" + da + "T" + h + ":" + mi + ":" + se + "Z";
    assert s[0..4] == y && s[5..7] == mo && s[8..10] == da;
    assert s[11..13] == h && s[14..16] == mi && s[17..19] == se;
    assert forall i :: DigitPosition(i) ==> IsDigit(s[i]) by {
      forall i | DigitPosition(i) ensures IsDigit(s[i]) {
        if i < 4 { assert s[i] == y[i]; }
        else if i < 7 { assert s[i] == mo[i - 5]; }
        else if i < 10 { assert s[i] == da[i - 8]; }
        else if i < 13 { assert s[i] == h[i - 11]; }
        else if i < 16 { assert s[i] == mi[i - 14]; }
        else { assert s[i] == se[i - 17]; }
      }
    }
    assert Four(s, 0) == Four(y, 0);
    assert Two(s, 5) == Two(mo, 0) && Two(s, 8) == Two(da, 0);
    assert Two(s, 11) == Two(h, 0) && Two(s, 14) == Two(mi, 0) && Two(s, 17) == Two(se, 0);
  }

  /** Every well-formed timestamp is the format of the fields it parses to. */
  lemma FormatParse(s: string)
    requires WellFormed(s)
    ensures ParseDate(s).Ok? && FormatDate(ParseDate(s).value) == s
  {
    var d := ParseDate(s).value;
    var t := FormatDate(d);
    ParseFormat(d);
    assert |t| == |s|;
    forall i | 0 <= i < |s| ensures t[i] == s[i] {
      if DigitPosition(i) {
        DigitsAgree(s, t, i);
      }
    }
  }

  /** Two well-formed timestamps with the same fields agree at every digit. */
  lemma DigitsAgree(s: string, t: string, i: nat)
    requires WellFormed(s) && WellFormed(t) && ParseDate(s) == ParseDate(t)
    requires DigitPosition(i)
    ensures s[i] == t[i]
  {
    var j := if i < 4 then i / 2 * 2 else if i < 7 then 5 else if i < 10 then 8
      else if i < 13 then 11 else if i < 16 then 14 else 17;
    assert DigitPosition(j) && DigitPosition(j + 1);
    assert Two(s, j) == Two(t, j) by {
      if i < 4 {
        assert DigitPosition(0) && DigitPosition(1) && DigitPosition(2) && DigitPosition(3);
        assert Four(s, 0) == Four(t, 0);
        TwoOfFour(s, t);
      }
    }
    TwoDigitsAgree(s, t, j);
  }

  lemma TwoDigitsAgree(s: string, t: string, j: nat)
    requires j + 2 <= |s| && j + 2 <= |t|
    requires IsDigit(s[j]) && IsDigit(s[j + 1]) && IsDigit(t[j]) && IsDigit(t[j + 1])
    requires Two(s, j) == Two(t, j)
    ensures s[j] == t[j] && s[j + 1] == t[j + 1]
  {
  }

  lemma TwoOfFour(s: string, t: string)
    requires |s| >= 4 && |t| >= 4
    requires forall i :: 0 <= i < 4 ==> IsDigit(s[i]) && IsDigit(t[i])
    requires Four(s, 0) == Four(t, 0)
    ensures Two(s, 0) == Two(t, 0) && Two(s, 2) == Two(t, 2)
  {
  }

  /** `DropboxV2Test`'s date-parsing example: `2016-11-04T07:42:22Z` is year 2016, hour 7
      (also on the 12-hour clock) and second 22. */
  lemma DateParsingExample()
    ensures ParseDate("2016-11-04T07:42:22Z") == Ok(DateTime(2016, 11, 4, 7, 42, 22))
    ensures Hour12(ParseDate("2016-11-04T07:42:22Z").value) == 7
  {
    var s := "2016-11-04T07:42:22Z";
    assert forall i :: DigitPosition(i) ==> IsDigit(s[i]);
  }
}

=== FILE: wrappers.dfy ===
/** Failure-carrying result types shared by the model.
    `Option` stands for a Java reference that may be null; `Result` for a
    call that either returns a value or throws. */
module Wrappers {

  datatype Option<+T> = None | Some(value: T)

  datatype Result<+T, +E> = Ok(value: T) | Err(error: E)
}
